=== FILE: README.md ===
# Copy/paste and the project module table of logicrs, in Dafny

This project models two parts of the logicrs circuit editor's graph layer as
pure functions over immutable datatypes. It proves their integrity properties.

**Clipboard** (`clipboard.dfy`, `src/application/clipboard.rs`).
- Copying turns a plot's selection into a detached snapshot.
  - A single selected block that exists and is not `unique` is copied with every port slot emptied.
  - A multiple selection copies its existing non-unique blocks, in selection order.
    - An input slot naming a connection of the plot keeps it only when that connection starts at a copied block.
    - An output slot is cleared when `remove_unselected_branches` reports that the connection has no branch left.
    - Otherwise the output slot's pruned connection is collected.
    - A slot, input or output, naming a connection the plot does not hold is kept as it is, and nothing is collected for it.
  - Any other selection copies nothing.
- Pasting (`prepare_pasting`, then `paste_to`) works in two sequential passes, as written:
  - Each block in turn gets a fresh id, moves by the paste offset and is highlighted. Every connection end at its old id is moved to the new one with `refactor_id`.
  - Each connection in turn gets a fresh id and its bend points move. Every port slot holding its old id takes the new one.
  - `paste_to` then clears highlights on the target plot and selects exactly the new blocks.
- The two passes are related to an independent reference definition: two simultaneous renamings, block ids to `g.next + i` and connection ids to `g.next + |blocks| + j` (`Renaming`).
  - `PreparePastingRenames` proves that the sequential passes equal the renamings whenever the snapshot's own ids predate the allocator state.
  - Freshness, "no stale id" and self-containment follow from that.

**Project** (`project.dfy`, `src/project.rs`).
- The module table keyed by name: `Project::new`, `add_existing_module`, `add_module` with the generated boundary blocks, `remove_module` and `plot`.
- The `Serialize` filter that leaves builtins out.
- The builtin merge and the `update_all_blocks` pass of `load_from`, with a save/load/save round trip.
- `tps`/`set_tps`.
- `collect_dependencies`, as a recursive method.
  - Its termination measure is the set of project module names not yet collected.
  - From an empty accumulator it collects exactly the modules reachable from the start module by "uses" (a plot holding a block of that module).

Supporting modules:
- `wrappers.dfy`: `Option`.
- `ids.dfy`: `Id` and the `Id::new()` counter `IdGen`, which is threaded through explicitly.
- `geometry.dfy`: integer `Vec2` and the `min` of positions.
- `circuit.dfy`: `Block`, `Connection`, `Plot`, `Module` and `Selection`, with the graph operations the core calls: `add_block`, `unhighlight`, `Block::new_sized`, `refactor_id` and `remove_unselected_branches`.

In two places the model follows the code rather than what one might expect:
- A multiple selection with no eligible blocks yields `Blocks([], [])`, not `Empty`. Only a `Single` selection of a unique or missing block, or a selection that is neither `Single` nor `Many`, yields `Empty`.
- `collect_dependencies` does not reject a cyclic module graph. The accumulator guard stops the walk, and a start module that lies on a cycle is collected like any other reachable module (`CollectDependencies`, last ensures).

## Model

| member | source | states |
|---|---|---|
| Ids.NewId | src/application/clipboard.rs:140 | `Id::new()` returns an id that no earlier call handed out, and the allocator moves past it |
| Geometry.MinPosition | src/application/clipboard.rs:131-136 | the least position under the `min` order, one of the given positions; the origin when there are none |
| Circuit.AddBlock | src/project.rs:171-172 | the block is stored under its id; every other block, the connections and the selection stay |
| Circuit.AddBlockKeepsKeyed | src/project.rs:171-172 | a plot that stores every block and connection under its own id still does after a block is added |
| Circuit.Unhighlight | src/application/clipboard.rs:38 | every block of the plot loses its highlight and nothing else changes |
| Circuit.NewSizedBlock | src/project.rs:148-165 | a fresh, unhighlighted block of the given module at the given position, with the requested unique flag and numbers of empty input and output slots |
| Circuit.RefactorId | src/application/clipboard.rs:146-148 | ends at the old block id move to the new one; all other ends, every bend point, and the connection's id stay |
| Circuit.RemoveUnselectedBranches | src/application/clipboard.rs:94-100 | keeps exactly the segments not ending outside the selection; reports removal exactly when no kept branch ends inside it |
| Clipboard.BlockIds | src/application/clipboard.rs:70 | the ids of the selected blocks, in order |
| Clipboard.Disconnected | src/application/clipboard.rs:117-123 | the single-block copy equals the block except that every input and output slot is empty |
| Clipboard.SelectedBlocks | src/application/clipboard.rs:66-71 | contains exactly the existing non-unique selected blocks, and no unique block |
| Clipboard.CopyInputs | src/application/clipboard.rs:104-110 | an input slot is cleared exactly when its connection starts outside the selection; otherwise it is kept |
| Clipboard.CopyOutputs | src/application/clipboard.rs:92-102 | an output slot is cleared exactly when pruning leaves its connection no branch; otherwise it is kept |
| Clipboard.CopyOutputsCollectsCarried | src/application/clipboard.rs:94-100 | every output slot whose connection keeps a branch contributes the pruned connection |
| Clipboard.CopyOutputsCollectsOnlyCarried | src/application/clipboard.rs:94-100 | every collected connection is the pruned connection of such a slot |
| Clipboard.CopiedBlock | src/application/clipboard.rs:92-110 | a copied block differs from its original only in slots, slot by slot as above |
| Clipboard.CopyBlocks | src/application/clipboard.rs:85-115 | the copy has one block per selected block, in order, each copied as above |
| Clipboard.CopyBlocksCollectsCarried | src/application/clipboard.rs:92-102 | every carried output slot of every copied block contributes its pruned connection |
| Clipboard.CopyBlocksCollectsOnlyCarried | src/application/clipboard.rs:92-102 | every collected connection comes from a carried output slot of a copied block |
| Clipboard.Capture | src/application/clipboard.rs:53-78 | never a module copy and never a unique block; `Empty` exactly when the selection is neither `Many` nor a single copyable block; a single block is copied disconnected; `Many` copies the eligible blocks, changing only their slots |
| Clipboard.PrunedStaysInside | src/application/clipboard.rs:94-100 | a kept connection keeps its id, ends only at selected blocks and has a branch left |
| Clipboard.CopiedConnectionStaysInside | src/application/clipboard.rs:85-115 | each collected connection ends only at copied blocks, has a branch, and is held by an output slot of a copied block |
| Clipboard.CapturedConnectionsStayInside | src/application/clipboard.rs:65-74 | every connection of a multiple copy leads only into the copy and is attached to it |
| Clipboard.SelectedBlocksFromPlot | src/application/clipboard.rs:66-71 | each selected block is the block the plot stores under its id |
| Clipboard.CopiedOutputSlotInside | src/application/clipboard.rs:92-102 | in a well-formed plot, an output slot the copy keeps names a collected connection |
| Clipboard.CopiedInputSlotInside | src/application/clipboard.rs:104-110 | in a well-formed plot, an input slot the copy keeps names a collected connection, since that connection starts at a copied block and ends at this one |
| Clipboard.CopiedSlotsInside | src/application/clipboard.rs:92-110 | every filled slot of the copied blocks names a collected connection |
| Clipboard.CarriedStartsAt | src/application/clipboard.rs:93-99 | a connection collected from an output slot of a block starts at that block |
| Clipboard.CopiedConnectionStartsInside | src/application/clipboard.rs:92-102 | every collected connection starts at a copied block |
| Clipboard.CopiedEndsInside | src/application/clipboard.rs:85-115 | every collected connection starts and ends only at copied blocks |
| Clipboard.CaptureIsSelfContained | src/application/clipboard.rs:53-115 | the copy of a well-formed plot is self-contained: its slots name only copied connections, and those start and end only at copied blocks |
| Clipboard.CaptureIdsFromPlot | src/application/clipboard.rs:53-78 | every copied block and connection keeps an id the plot holds |
| Clipboard.Shifted | src/application/clipboard.rs:155-159 | the id, the origin and the number of segments stay; every bend point moves by the offset and every branch end stays as it was |
| Clipboard.RelocateBlocks | src/application/clipboard.rs:139-149 | block `i` gets id `g.next + i`, moves by the offset and is highlighted; connection ids, segment counts and bend points are untouched |
| Clipboard.RelabelConnections | src/application/clipboard.rs:151-171 | connection `j` gets id `g.next + j` with its bend points moved; blocks change only in slots, and empty slots stay empty |
| Clipboard.PreparePasting | src/application/clipboard.rs:129-175 | counts are kept; ids are consecutive from the allocator state; every block moves by the paste offset and is highlighted |
| Clipboard.RenamingFacts | src/application/clipboard.rs:139-171 | the reference renaming maps exactly the listed ids, each to its base plus its first position |
| Clipboard.RelocateBlocksRenamesEnds | src/application/clipboard.rs:139-149 | the sequential `refactor_id` pass equals the simultaneous block renaming on every connection |
| Clipboard.RelabelConnectionsRenamesSlots | src/application/clipboard.rs:151-171 | the sequential slot rewrite equals the simultaneous connection renaming on every block |
| Clipboard.PreparePastingRenamesBlocks | src/application/clipboard.rs:139-171 | pasted block `i` is clipboard block `i` with id `g.next + i`, moved by the offset, highlighted, and its slots renamed by the simultaneous connection renaming |
| Clipboard.PreparePastingRenamesConnections | src/application/clipboard.rs:139-159 | pasted connection `j` is clipboard connection `j` with id `g.next` plus the number of blocks plus `j`, its bend points moved and its ends renamed by the simultaneous block renaming |
| Clipboard.PreparedBlocksRenamed | src/application/clipboard.rs:151-171 | after the block pass, the connection pass renames slots exactly as the simultaneous connection renaming does |
| Clipboard.PreparePastingRenames | src/application/clipboard.rs:129-175 | `prepare_pasting` equals the two simultaneous renamings plus the translation, block by block and connection by connection |
| Clipboard.PasteIdsAreFresh | src/application/clipboard.rs:139-154 | no pasted id was handed out before, pasted ids are pairwise distinct, and all lie below the new allocator state |
| Clipboard.PasteTranslatesUniformly | src/application/clipboard.rs:131-159 | every block and every bend point moves by the same offset, and every block is highlighted |
| Clipboard.PasteLandsOnTarget | src/application/clipboard.rs:131-143 | the least pasted position is the target: no block lies before it, and some block lies on it |
| Clipboard.PastedRenamingFacts | src/application/clipboard.rs:139-171 | the pasted blocks and connections are the clipboard's under the two renamings |
| Clipboard.SlotsLandOnPasted | src/application/clipboard.rs:161-170 | empty slots stay empty, no clipboard connection id survives, and each becomes its pasted copy's id |
| Clipboard.EndsLandOnPasted | src/application/clipboard.rs:146-148 | no connection end keeps a clipboard block id, and an end at a clipboard block is at a pasted block |
| Clipboard.RenamingLeavesNoStaleIds | src/application/clipboard.rs:139-171 | renamed blocks and connections hold no stale clipboard id |
| Clipboard.PasteLeavesNoStaleIds | src/application/clipboard.rs:139-171 | after `prepare_pasting` no slot or end holds a clipboard id; each reference names the pasted copy |
| Clipboard.SlotsStayInside | src/application/clipboard.rs:161-170 | slots that named the clipboard's connections name the pasted connections |
| Clipboard.EndsStayInside | src/application/clipboard.rs:146-148 | ends that were at the clipboard's blocks are at the pasted blocks |
| Clipboard.RenamingKeepsSelfContained | src/application/clipboard.rs:139-171 | renaming keeps a self-contained subgraph self-contained |
| Clipboard.PasteKeepsSubgraphSelfContained | src/application/clipboard.rs:129-175 | pasting a self-contained snapshot yields a self-contained subgraph |
| Clipboard.PasteTo | src/application/clipboard.rs:29-50 | defined only on `Blocks`; the action carries exactly the blocks and connections `prepare_pasting` produced; the target plot keeps its keys and connections, and each of its blocks changes only by losing its highlight; the selection is `Many` of exactly the new block ids in order |
| Clipboard.PasteToIdsAreFresh | src/application/clipboard.rs:34-46 | when the allocator is past every id of the target plot, no block or connection of the action has an id the target plot holds, and the action's ids are pairwise distinct |
| Clipboard.CopyPasteIsSelfContained | src/application/clipboard.rs:29-115 | pasting a copy of a well-formed plot hands the action a self-contained subgraph none of whose ids the source plot holds |
| Projects.ModulesByNameHasEveryName | src/project.rs:70-73 | every given module's name is a key |
| Projects.ModulesByNameStoresGiven | src/project.rs:70-73 | only given modules are stored, each under its own name |
| Projects.ModulesByNameLastWins | src/project.rs:70-73 | of several modules with one name, the last is stored |
| Projects.ModulesByNameFacts | src/project.rs:70-73 | the three facts above together |
| Projects.NewProject | src/project.rs:68-77 | modules keyed by name, last one winning; empty main plot and default speed |
| Projects.NewProjectKeepsEveryModule | src/project.rs:68-77 | with distinct names every given module is in the table unchanged |
| Projects.Serialize | src/project.rs:37-53 | a name is written exactly when its module is not builtin, with the same value; main plot and speed pass through |
| Projects.AddModule | src/project.rs:142-176 | only the entry under the module's name changes. A module that needs boundary blocks gets fresh input and output blocks, sized by its input and output counts, added to its plot under their own ids and named as its IO blocks; any other module is inserted unchanged |
| Projects.AddModuleKeepsPlotKeyed | src/project.rs:142-176 | if the module's plot stores every block and connection under its own id, so does the plot `add_module` stores |
| Projects.MergeBuiltins | src/project.rs:84-86 | the table becomes the loaded one overridden by the builtins keyed by name |
| Projects.UpdatePlot | src/project.rs:93-95 | only the module's plot changes, by `update`, and only if it has one |
| Projects.UpdateAllPlots | src/project.rs:202-207 | every module plot and the main plot pass through `update`; keys and speed stay |
| Projects.Load | src/project.rs:79-97 | the keys are the document's plus the builtins' names; builtin entries are the builtins and the others the document's, each with plots updated |
| Projects.SaveLoadRoundTrip | src/project.rs:37-97 | every builtin is present after loading, and saving again reproduces the saved document |
| Projects.SavedModulesSurviveLoad | src/project.rs:84-95 | when no builtin name collides with a saved name and `update` leaves the saved plots alone, every saved module is saved again unchanged after loading |
| Projects.LoadSavesNoBuiltin | src/project.rs:42-86 | loading adds only builtins, which the next save leaves out |
| Projects.LoadedBuiltinsStayBuiltin | src/project.rs:84-86 | after loading every builtin name is present and holds a builtin module |
| Projects.AddExistingModule | src/project.rs:138-140 | the entry under the module's name becomes the module; every other entry stays |
| Projects.RemoveModule | src/project.rs:178-180 | only the named entry goes; every other entry stays |
| Projects.PlotOf | src/project.rs:186-190 | absent exactly when the module is absent or has no plot, otherwise the module's plot |
| Projects.AddRemoveInverse | src/project.rs:138-190 | removing undoes adding over an absent name; adding after removing equals adding; `plot` sees the change |
| Projects.SetTps | src/project.rs:209-215 | only the speed changes, and it reads back as set |
| Projects.SavedTpsIsLastSet | src/project.rs:209-215 | the saved speed is the last one set; setting it leaves the saved modules alone |
| Projects.Dependency | src/project.rs:220-223 | a block leads to a module exactly when the table has its module id and that module is not builtin |
| Projects.CollectDependencies | src/project.rs:217-230 | terminates on every module graph; only adds entries, each a non-builtin project module under its name; adds only reachable modules and is closed under use; from an empty accumulator it is exactly the reachable set |
| Projects.UsedAreCollected | src/project.rs:218-228 | once every block of the plot is handled, every module the plot uses is collected |
| Projects.CollectedAreReachable | src/project.rs:217-230 | a use-closed map of only reachable modules, built from nothing, holds exactly the reachable ones |
| Projects.ChainReaches | src/project.rs:217-230 | in a chain A uses B uses C, exactly B and C are reachable from A |
| Projects.CollectChain | src/project.rs:218-226 | collecting from the head of the chain gathers exactly B and C, each as the project stores it |

Some definitions are steps inside a member of the table that cites the same lines, and have no row of their own: `Projects.ModulesByName` (src/project.rs:70-73, inside `NewProject` and the `ModulesByName` lemmas), `Clipboard.PasteOffset` (src/application/clipboard.rs:131-137, inside `PreparePasting` and `PasteLandsOnTarget`), `Clipboard.RefactorAll` (src/application/clipboard.rs:146-148, inside `RelocateBlocks`), `Clipboard.RewireAll` (src/application/clipboard.rs:161-170, inside `RelabelConnections`) and `Circuit.EmptyPlot` (`Plot::new()` at src/project.rs:74, inside `NewProject`).

## Left out

- File I/O and `serde_json` parsing and writing in `load_from`/`write_to`, and `Clipboard::serialize`/`deserialize`: only the logical filter and merge steps are modelled. `ProjectDocument` stands for the parsed file.
- `Vector2<f64>` and `Vector2::cast`: the paste target is taken as an integer vector. Positions are unbounded integers, so `i32` overflow of `position + offset` is not modelled.
- Geometry.MinPosition: the ordering of `Vector2` is not part of this model. It is taken to be lexicographic (x, then y).
- The bodies of `remove_unselected_branches`, `refactor_id`, `Block::new_sized`, `Plot::add_block` and `Plot::unhighlight` are not part of this model. Each is a small concrete definition with the contract the core relies on. A connection's segment tree is flattened into one sequence of bend points and branch ends.
- `update_all_blocks` is not part of this model. It is a function parameter `update` of `Load` and `UpdateAllPlots`.
- `Simulator::DEFAULT_TICKS_PER_SECOND` and the builtin names `INPUT_MODULE_NAME`/`OUTPUT_MODULE_NAME` are defined in files that are not part of this model. They are placeholder constants.
- The builtin table `BUILTINS` is a parameter of `Load`.
- Projects.AddModule: requires the Input and Output builtins to be in the table when the module needs boundary blocks. The source unwraps both lookups and panics when either is missing; the model makes that panic a precondition.
- Projects.MergeBuiltins, Projects.Load, Projects.SaveLoadRoundTrip, Projects.SavedModulesSurviveLoad, Projects.LoadSavesNoBuiltin and Projects.LoadedBuiltinsStayBuiltin: require that no builtin needs boundary blocks. Builtins are primitives without plots, so `add_module` only inserts them; the requirement avoids modelling the boundary-block generation for them.
- Projects.SaveLoadRoundTrip and Projects.SavedModulesSurviveLoad: require that builtin names do not collide with saved module names, and that `update` leaves the saved module plots alone (SaveLoadRoundTrip also the main plot); without these, the saved file legitimately changes.
- `Project::default`, `Clipboard::default`, the accessors `module`, `module_mut`, `modules`, `modules_mut`, `main_plot`, `main_plot_mut` and `plot_mut`: plain field access with nothing to prove. `PlotOf` models `plot`.
- `Plot::set_selection`, `Module::has_io_blocks`, `Module::set_io_blocks`, `Module::get_num_inputs` and `Module::get_num_outputs`: plain field reads and writes of `Plot.selection`, `Module.ioBlocks`, `Module.numInputs` and `Module.numOutputs`.
- `Action::PasteBlocks` is an opaque result. Applying, undoing and redoing actions, the simulator, and the UI are not modelled.
- Clipboard.CaptureIsSelfContained: requires `WellFormed`, the plot's reference integrity (slots name existing connections, an origin's output slot holds its connection, an input slot's connection ends at its block). The plot editing code that keeps this invariant is not part of this model.
- The plot provider's lock in `paste_to` and the process-wide `Id::new()` counter are modelled as a plain plot value and an explicit `IdGen` state.
- Projects.CollectDependencies: the `HashMap` iteration order of a plot's blocks is modelled as an arbitrary choice, so each run picks some order. Block ids, not block values, are iterated.

=== FILE: circuit.dfy ===
/** The circuit graph the clipboard and the project work on: blocks, connections,
    plots and modules, together with the few graph operations they call. */
module Circuit {
  import opened Wrappers
  import opened Ids
  import opened Geometry

  /** One end of a connection: a block and the index of one of its ports. */
  datatype Port = Port(block: Id, index: nat)

  /** A piece of a connection's route: a bend point, which has a position, or the
      end of one branch at a block's input port, which has none. */
  datatype Segment = Waypoint(position: Vec2) | Endpoint(port: Port)

  /** A signal path from one output port (`origin`) to the input ports its
      `Endpoint` segments name. */
  datatype Connection = Connection(id: Id, origin: Port, segments: seq<Segment>)

  /** A placed instance of the module named `moduleId`. Each port slot holds the
      connection attached to it, if any. `unique` blocks are a module's IO blocks. */
  datatype Block = Block(
    id: Id,
    moduleId: string,
    position: Vec2,
    highlighted: bool,
    unique: bool,
    inputs: seq<Option<Id>>,
    outputs: seq<Option<Id>>)

  datatype Selectable = SelectedBlock(block: Id) | SelectedConnection(connection: Id)
  {
    /** `Selectable::block_id`. */
    function BlockId(): Option<Id>
    {
      if SelectedBlock? then Some(block) else None
    }
  }

  /** What the user has selected on a plot. `Area` stands for the variants the
      clipboard does not copy from (a rubber-band area, a drag in progress). */
  datatype Selection =
    | NoSelection
    | Single(item: Selectable, port: Option<nat>)
    | Many(items: seq<Selectable>)
    | Area(corner: Vec2, extent: Vec2)

  datatype Plot = Plot(blocks: map<Id, Block>, connections: map<Id, Connection>, selection: Selection)

  /** A circuit definition. Primitives have no plot; a composite's plot implements
      it, and `ioBlocks` names the input and output blocks inside that plot. */
  datatype Module = Module(
    name: string,
    builtin: bool,
    plot: Option<Plot>,
    ioBlocks: Option<(Id, Id)>,
    numInputs: nat,
    numOutputs: nat)

  /** `Plot::new()`. */
  function EmptyPlot(): Plot
  {
    Plot(map[], map[], NoSelection)
  }

  /** `Plot::add_block`: stores `b` under its own id. */
  function AddBlock(p: Plot, b: Block): (r: Plot)
    ensures r.blocks.Keys == p.blocks.Keys + {b.id}
    ensures forall id | id in p.blocks && id != b.id :: r.blocks[id] == p.blocks[id]
    ensures r.blocks[b.id] == b && r.connections == p.connections && r.selection == p.selection
  {
    p.(blocks := p.blocks[b.id := b])
  }

  /** Every block of `plot` is stored under its own id. */
  ghost predicate BlocksKeyedById(plot: Plot)
  {
    forall id | id in plot.blocks :: plot.blocks[id].id == id
  }

  /** Every connection of `plot` is stored under its own id. */
  ghost predicate ConnectionsKeyedById(plot: Plot)
  {
    forall id | id in plot.connections :: plot.connections[id].id == id
  }

  /** Adding a block keeps a plot keyed by id. */
  lemma AddBlockKeepsKeyed(p: Plot, b: Block)
    requires BlocksKeyedById(p) && ConnectionsKeyedById(p)
    ensures BlocksKeyedById(AddBlock(p, b)) && ConnectionsKeyedById(AddBlock(p, b))
  {
  }

  /** `Plot::unhighlight`: every block loses its highlight; nothing else changes. */
  function Unhighlight(p: Plot): (r: Plot)
    ensures r.blocks.Keys == p.blocks.Keys
    ensures forall id | id in r.blocks :: !r.blocks[id].highlighted
    ensures forall id | id in r.blocks :: r.blocks[id].(highlighted := p.blocks[id].highlighted) == p.blocks[id]
    ensures r.connections == p.connections && r.selection == p.selection
  {
    p.(blocks := map id | id in p.blocks :: p.blocks[id].(highlighted := false))
  }

  /** `n` empty port slots. */
  function Nones(n: nat): (r: seq<Option<Id>>)
    ensures |r| == n && forall k | 0 <= k < n :: r[k].None?
  {
    seq(n, _ => None)
  }

  /** `Block::new_sized(module, position, unique, inputs, outputs, None)`: a fresh
      block of `module` with the given number of empty slots. */
  function NewSizedBlock(m: Module, position: Vec2, unique: bool, numInputs: nat, numOutputs: nat, g: IdGen): (r: (Block, IdGen))
    ensures g.next <= r.0.id < r.1.next
    ensures r.0.moduleId == m.name && r.0.position == position && r.0.unique == unique && !r.0.highlighted
    ensures |r.0.inputs| == numInputs && forall k | 0 <= k < numInputs :: r.0.inputs[k].None?
    ensures |r.0.outputs| == numOutputs && forall k | 0 <= k < numOutputs :: r.0.outputs[k].None?
  {
    var (id, g') := NewId(g);
    (Block(id, m.name, position, false, unique, Nones(numInputs), Nones(numOutputs)), g')
  }

  // Renaming of identifiers, used when pasted entities get fresh identifiers.

  /** `x` renamed by `m`; identifiers outside `m`'s domain stay as they are. */
  function Rename(m: map<Id, Id>, x: Id): Id
  {
    if x in m then m[x] else x
  }

  function RenamePort(m: map<Id, Id>, p: Port): Port
  {
    p.(block := Rename(m, p.block))
  }

  function RenameSegment(m: map<Id, Id>, s: Segment): Segment
  {
    match s
    case Waypoint(_) => s
    case Endpoint(p) => Endpoint(RenamePort(m, p))
  }

  /** `c` with every block it touches (its origin and every branch end) renamed by `m`. */
  function RenameEnds(m: map<Id, Id>, c: Connection): (r: Connection)
    ensures r.id == c.id && |r.segments| == |c.segments|
  {
    c.(origin := RenamePort(m, c.origin),
       segments := seq(|c.segments|, k requires 0 <= k < |c.segments| => RenameSegment(m, c.segments[k])))
  }

  /** A port slot whose connection is renamed by `m`; an empty slot stays empty. */
  function RenameSlot(m: map<Id, Id>, s: Option<Id>): Option<Id>
  {
    match s
    case None => None
    case Some(c) => Some(Rename(m, c))
  }

  function RenameSlotSeq(m: map<Id, Id>, slots: seq<Option<Id>>): (r: seq<Option<Id>>)
    ensures |r| == |slots|
  {
    seq(|slots|, k requires 0 <= k < |slots| => RenameSlot(m, slots[k]))
  }

  /** `b` with the connection in every port slot renamed by `m`. */
  function RenameSlots(m: map<Id, Id>, b: Block): Block
  {
    b.(inputs := RenameSlotSeq(m, b.inputs), outputs := RenameSlotSeq(m, b.outputs))
  }

  /** `Connection::refactor_id(old_id, new_id)`: every end of `c` at block `oldId` moves to
      block `newId`; every other end, and the connection's id, stay. */
  function RefactorId(c: Connection, oldId: Id, newId: Id): (r: Connection)
    ensures r.id == c.id && |r.segments| == |c.segments|
    ensures r.origin.index == c.origin.index
    ensures r.origin.block == if c.origin.block == oldId then newId else c.origin.block
    ensures forall k | 0 <= k < |c.segments| :: r.segments[k].Endpoint? == c.segments[k].Endpoint?
    ensures forall k | 0 <= k < |c.segments| && c.segments[k].Endpoint? && c.segments[k].port.block != oldId ::
              r.segments[k] == c.segments[k]
    ensures forall k | 0 <= k < |c.segments| && c.segments[k].Endpoint? && c.segments[k].port.block == oldId ::
              r.segments[k].port == c.segments[k].port.(block := newId)
    ensures forall k | 0 <= k < |c.segments| && c.segments[k].Waypoint? :: r.segments[k] == c.segments[k]
  {
    RenameEnds(map[oldId := newId], c)
  }

  // Pruning a connection to a selection.

  /** True when segment `s` ends a branch at a block outside `selected`. */
  predicate LeavesSelection(s: Segment, selected: seq<Id>)
  {
    s.Endpoint? && s.port.block !in selected
  }

  function KeepSelected(segs: seq<Segment>, selected: seq<Id>): (r: seq<Segment>)
    ensures forall s | s in r :: s in segs && !LeavesSelection(s, selected)
    ensures forall s | s in segs && !LeavesSelection(s, selected) :: s in r
  {
    if segs == [] then []
    else if LeavesSelection(segs[0], selected) then KeepSelected(segs[1..], selected)
    else [segs[0]] + KeepSelected(segs[1..], selected)
  }

  /** `Connection::remove_unselected_branches`: drops every branch ending at a block
      outside `selected`, and reports whether no branch is left (the connection
      then has nothing to carry and the caller drops it). */
  function RemoveUnselectedBranches(c: Connection, selected: seq<Id>): (r: (Connection, bool))
    ensures r.0.id == c.id && r.0.origin == c.origin
    ensures forall s | s in r.0.segments :: s in c.segments && !LeavesSelection(s, selected)
    ensures forall s | s in c.segments && !LeavesSelection(s, selected) :: s in r.0.segments
    ensures r.1 <==> forall s | s in c.segments :: s.Endpoint? ==> s.port.block !in selected
  {
    var kept := KeepSelected(c.segments, selected);
    (c.(segments := kept), forall s | s in kept :: !s.Endpoint?)
  }
}

=== FILE: clipboard.dfy ===
/** Copy and paste of parts of a plot (`src/application/clipboard.rs`).

    Copying turns the plot's selection into a detached snapshot; pasting gives
    every block and connection of the snapshot a fresh identifier, moves it to
    the paste position and rewrites the references between them. */
module Clipboard {
  import opened Wrappers
  import opened Ids
  import opened Geometry
  import opened Circuit

  /** What the clipboard holds: nothing, blocks with the connections among them,
      or a whole module. */
  datatype Clipboard =
    | Empty
    | Blocks(blocks: seq<Block>, connections: seq<Connection>)
    | ModuleCopy(copied: Module)

  /** `Action::PasteBlocks`: the undoable step that later inserts the pasted
      blocks and connections into the target plot. */
  datatype Action = PasteBlocks(blocks: seq<Block>, connections: seq<Connection>)

  function BlockIds(bs: seq<Block>): (r: seq<Id>)
    ensures |r| == |bs| && forall i | 0 <= i < |bs| :: r[i] == bs[i].id
  {
    seq(|bs|, i requires 0 <= i < |bs| => bs[i].id)
  }

  function ConnectionIds(cs: seq<Connection>): (r: seq<Id>)
    ensures |r| == |cs| && forall j | 0 <= j < |cs| :: r[j] == cs[j].id
  {
    seq(|cs|, j requires 0 <= j < |cs| => cs[j].id)
  }

  // ---------------------------------------------------------------------------
  // Copying

  /** `c` is `b` with every port slot emptied and nothing else changed. */
  ghost predicate IsDisconnectedCopy(c: Block, b: Block)
  {
    && c.(inputs := b.inputs, outputs := b.outputs) == b
    && |c.inputs| == |b.inputs| && |c.outputs| == |b.outputs|
    && (forall k | 0 <= k < |c.inputs| :: c.inputs[k].None?)
    && (forall k | 0 <= k < |c.outputs| :: c.outputs[k].None?)
  }

  /** `prepare_copying` on a single block: the copy starts disconnected. */
  function Disconnected(b: Block): (r: Block)
    ensures IsDisconnectedCopy(r, b)
  {
    b.(inputs := Nones(|b.inputs|), outputs := Nones(|b.outputs|))
  }

  /** True when `item` is a block of `plot` that may be duplicated: it names a
      block (`block_id` is some id), that block exists, and it is not one of a
      module's unique IO blocks. */
  predicate Copyable(plot: Plot, item: Selectable)
  {
    item.BlockId().Some? && item.block in plot.blocks && !plot.blocks[item.block].unique
  }

  /** The blocks a multiple selection copies, in selection order: the selected
      blocks that exist and are not unique. */
  function SelectedBlocks(plot: Plot, items: seq<Selectable>): (r: seq<Block>)
    ensures |r| <= |items|
    ensures forall b | b in r :: !b.unique
    ensures forall b | b in r ::
              exists i | 0 <= i < |items| :: Copyable(plot, items[i]) && plot.blocks[items[i].block] == b
    ensures forall i | 0 <= i < |items| && Copyable(plot, items[i]) :: plot.blocks[items[i].block] in r
  {
    if items == [] then []
    else
      var rest := SelectedBlocks(plot, items[1..]);
      if Copyable(plot, items[0]) then [plot.blocks[items[0].block]] + rest else rest
  }

  /** True when input `slot` holds a connection of `plot` whose origin block is
      not among `selected`. */
  predicate Severed(plot: Plot, selected: seq<Id>, slot: Option<Id>)
  {
    slot.Some? && slot.value in plot.connections && plot.connections[slot.value].origin.block !in selected
  }

  /** Input pass of a multiple copy: a slot keeps its connection only when that
      connection starts at a selected block. */
  function CopyInputs(plot: Plot, selected: seq<Id>, slots: seq<Option<Id>>): (r: seq<Option<Id>>)
    ensures |r| == |slots|
    ensures forall k | 0 <= k < |slots| :: r[k].None? <==> slots[k].None? || Severed(plot, selected, slots[k])
    ensures forall k | 0 <= k < |slots| && r[k].Some? :: r[k] == slots[k]
  {
    seq(|slots|, k requires 0 <= k < |slots| => if Severed(plot, selected, slots[k]) then None else slots[k])
  }

  /** True when output `slot` holds a connection of `plot` of which no branch
      ends at a selected block. */
  predicate Emptied(plot: Plot, selected: seq<Id>, slot: Option<Id>)
  {
    slot.Some? && slot.value in plot.connections
    && RemoveUnselectedBranches(plot.connections[slot.value], selected).1
  }

  /** True when output `slot` holds a connection of `plot` of which some branch
      ends at a selected block. */
  predicate Carried(plot: Plot, selected: seq<Id>, slot: Option<Id>)
  {
    slot.Some? && slot.value in plot.connections
    && !RemoveUnselectedBranches(plot.connections[slot.value], selected).1
  }

  /** The connection output `slot` holds, cut down to its branches into `selected`. */
  function Pruned(plot: Plot, selected: seq<Id>, slot: Option<Id>): Connection
    requires slot.Some? && slot.value in plot.connections
  {
    RemoveUnselectedBranches(plot.connections[slot.value], selected).0
  }

  /** Output pass of a multiple copy: a slot whose connection has no branch into
      the selection is cleared; otherwise the pruned connection is collected. */
  function CopyOutputs(plot: Plot, selected: seq<Id>, slots: seq<Option<Id>>): (r: (seq<Option<Id>>, seq<Connection>))
    ensures |r.0| == |slots| && |r.1| <= |slots|
    ensures forall k | 0 <= k < |slots| :: r.0[k] == if Emptied(plot, selected, slots[k]) then None else slots[k]
  {
    if slots == [] then ([], [])
    else
      var rest := CopyOutputs(plot, selected, slots[1..]);
      if Emptied(plot, selected, slots[0]) then ([None] + rest.0, rest.1)
      else if Carried(plot, selected, slots[0]) then ([slots[0]] + rest.0, [Pruned(plot, selected, slots[0])] + rest.1)
      else ([slots[0]] + rest.0, rest.1)
  }

  /** Every output slot whose connection keeps a branch into the selection
      contributes that pruned connection. */
  lemma {:induction false} CopyOutputsCollectsCarried(plot: Plot, selected: seq<Id>, slots: seq<Option<Id>>, k: nat)
    requires k < |slots| && Carried(plot, selected, slots[k])
    ensures Pruned(plot, selected, slots[k]) in CopyOutputs(plot, selected, slots).1
  {
    if k > 0 {
      CopyOutputsCollectsCarried(plot, selected, slots[1..], k - 1);
    }
  }

  /** Every collected connection is the pruned connection of a carried slot. */
  lemma {:induction false} CopyOutputsCollectsOnlyCarried(plot: Plot, selected: seq<Id>, slots: seq<Option<Id>>, c: Connection)
    requires c in CopyOutputs(plot, selected, slots).1
    ensures exists k | 0 <= k < |slots| :: Carried(plot, selected, slots[k]) && c == Pruned(plot, selected, slots[k])
  {
    if !(Carried(plot, selected, slots[0]) && c == Pruned(plot, selected, slots[0])) {
      CopyOutputsCollectsOnlyCarried(plot, selected, slots[1..], c);
      var k :| 0 <= k < |slots| - 1 && Carried(plot, selected, slots[1..][k]) && c == Pruned(plot, selected, slots[1..][k]);
      assert slots[1..][k] == slots[k + 1];
    }
  }

  /** Connection `c` was collected from one of `b`'s output slots. */
  ghost predicate CarriedFrom(plot: Plot, selected: seq<Id>, b: Block, c: Connection)
  {
    exists k | 0 <= k < |b.outputs| :: Carried(plot, selected, b.outputs[k]) && c == Pruned(plot, selected, b.outputs[k])
  }

  /** `prepare_copying` on one block of a multiple selection: its output slots
      and then its input slots are cut loose from everything outside `selected`. */
  function CopiedBlock(plot: Plot, selected: seq<Id>, b: Block): (r: Block)
    ensures r.(inputs := b.inputs, outputs := b.outputs) == b
    ensures |r.inputs| == |b.inputs| && |r.outputs| == |b.outputs|
    ensures forall k | 0 <= k < |b.inputs| ::
              (r.inputs[k].None? <==> b.inputs[k].None? || Severed(plot, selected, b.inputs[k]))
              && (r.inputs[k].Some? ==> r.inputs[k] == b.inputs[k])
    ensures forall k | 0 <= k < |b.outputs| ::
              (r.outputs[k].None? <==> b.outputs[k].None? || Emptied(plot, selected, b.outputs[k]))
              && (r.outputs[k].Some? ==> r.outputs[k] == b.outputs[k])
  {
    b.(outputs := CopyOutputs(plot, selected, b.outputs).0, inputs := CopyInputs(plot, selected, b.inputs))
  }

  /** `prepare_copying` on the blocks of a multiple selection: every block is
      copied in turn, and the connections that stay are collected. */
  function CopyBlocks(plot: Plot, selected: seq<Id>, bs: seq<Block>): (r: (seq<Block>, seq<Connection>))
    ensures |r.0| == |bs| && forall i | 0 <= i < |bs| :: r.0[i] == CopiedBlock(plot, selected, bs[i])
  {
    if bs == [] then ([], [])
    else
      var rest := CopyBlocks(plot, selected, bs[1..]);
      ([CopiedBlock(plot, selected, bs[0])] + rest.0, CopyOutputs(plot, selected, bs[0].outputs).1 + rest.1)
  }

  /** Every output slot of a copied block whose connection keeps a branch into
      the selection contributes that pruned connection. */
  lemma {:induction false} CopyBlocksCollectsCarried(plot: Plot, selected: seq<Id>, bs: seq<Block>, i: nat, k: nat)
    requires i < |bs| && k < |bs[i].outputs| && Carried(plot, selected, bs[i].outputs[k])
    ensures Pruned(plot, selected, bs[i].outputs[k]) in CopyBlocks(plot, selected, bs).1
  {
    if i > 0 {
      CopyBlocksCollectsCarried(plot, selected, bs[1..], i - 1, k);
    } else {
      CopyOutputsCollectsCarried(plot, selected, bs[0].outputs, k);
    }
  }

  /** Every collected connection comes from an output slot of a copied block. */
  lemma {:induction false} CopyBlocksCollectsOnlyCarried(plot: Plot, selected: seq<Id>, bs: seq<Block>, c: Connection)
    requires c in CopyBlocks(plot, selected, bs).1
    ensures exists i | 0 <= i < |bs| :: CarriedFrom(plot, selected, bs[i], c)
  {
    var outs := CopyOutputs(plot, selected, bs[0].outputs);
    if c in outs.1 {
      CopyOutputsCollectsOnlyCarried(plot, selected, bs[0].outputs, c);
    } else {
      CopyBlocksCollectsOnlyCarried(plot, selected, bs[1..], c);
      var i :| 0 <= i < |bs| - 1 && CarriedFrom(plot, selected, bs[1..][i], c);
      assert bs[1..][i] == bs[i + 1];
    }
  }

  /** `Clipboard::from(&Plot)`: the snapshot copy takes of the plot's selection. */
  function Capture(plot: Plot): (r: Clipboard)
    ensures !r.ModuleCopy?
    ensures r.Blocks? ==> forall b | b in r.blocks :: !b.unique
    ensures r.Empty? <==> !plot.selection.Many? && !(plot.selection.Single? && Copyable(plot, plot.selection.item))
    ensures plot.selection.Single? && Copyable(plot, plot.selection.item) ==>
              && r.Blocks? && |r.blocks| == 1 && r.connections == []
              && IsDisconnectedCopy(r.blocks[0], plot.blocks[plot.selection.item.block])
    ensures plot.selection.Many? ==>
              var sel := SelectedBlocks(plot, plot.selection.items);
              && r.Blocks? && |r.blocks| == |sel|
              && forall i | 0 <= i < |sel| :: r.blocks[i].(inputs := sel[i].inputs, outputs := sel[i].outputs) == sel[i]
  {
    match plot.selection
    case Single(item, _) =>
      if Copyable(plot, item) then Blocks([Disconnected(plot.blocks[item.block])], []) else Empty
    case Many(items) =>
      var sel := SelectedBlocks(plot, items);
      var data := CopyBlocks(plot, BlockIds(sel), sel);
      Blocks(data.0, data.1)
    case _ => Empty
  }

  /** The pruned connection of a carried output slot keeps its id, ends only at
      blocks of `selected`, and keeps at least one branch. */
  lemma PrunedStaysInside(plot: Plot, selected: seq<Id>, slot: Option<Id>)
    requires ConnectionsKeyedById(plot) && Carried(plot, selected, slot)
    ensures Some(Pruned(plot, selected, slot).id) == slot
    ensures forall s | s in Pruned(plot, selected, slot).segments && s.Endpoint? :: s.port.block in selected
    ensures exists s | s in Pruned(plot, selected, slot).segments :: s.Endpoint?
  {
    var original := plot.connections[slot.value];
    var s :| s in original.segments && s.Endpoint? && s.port.block in selected;
    assert s in Pruned(plot, selected, slot).segments;
  }

  /** One connection collected by `CopyBlocks`: every branch ends at a block
      of `selected`, at least one branch is left, and an output slot of a
      copied block holds it. */
  lemma CopiedConnectionStaysInside(plot: Plot, selected: seq<Id>, bs: seq<Block>, c: Connection)
    requires ConnectionsKeyedById(plot)
    requires c in CopyBlocks(plot, selected, bs).1
    ensures forall s | s in c.segments && s.Endpoint? :: s.port.block in selected
    ensures exists s | s in c.segments :: s.Endpoint?
    ensures exists i | 0 <= i < |bs| :: Some(c.id) in CopyBlocks(plot, selected, bs).0[i].outputs
  {
    CopyBlocksCollectsOnlyCarried(plot, selected, bs, c);
    var i :| 0 <= i < |bs| && CarriedFrom(plot, selected, bs[i], c);
    var k :| 0 <= k < |bs[i].outputs| && Carried(plot, selected, bs[i].outputs[k])
             && c == Pruned(plot, selected, bs[i].outputs[k]);
    PrunedStaysInside(plot, selected, bs[i].outputs[k]);
    assert CopiedBlock(plot, selected, bs[i]).outputs[k] == bs[i].outputs[k];
  }

  /** A multiple copy takes only connections that still lead somewhere inside
      the copy: every branch ends at a copied block, at least one branch is
      left, and a copied block's output slot holds the connection. */
  lemma CapturedConnectionsStayInside(plot: Plot)
    requires plot.selection.Many?
    requires ConnectionsKeyedById(plot)
    ensures var r := Capture(plot);
            forall c | c in r.connections ::
              && (forall s | s in c.segments && s.Endpoint? :: s.port.block in BlockIds(r.blocks))
              && (exists s | s in c.segments :: s.Endpoint?)
              && (exists i | 0 <= i < |r.blocks| :: Some(c.id) in r.blocks[i].outputs)
  {
    var sel := SelectedBlocks(plot, plot.selection.items);
    var selected := BlockIds(sel);
    var r := Capture(plot);
    assert BlockIds(r.blocks) == selected;
    forall c | c in r.connections
      ensures forall s | s in c.segments && s.Endpoint? :: s.port.block in selected
      ensures exists s | s in c.segments :: s.Endpoint?
      ensures exists i | 0 <= i < |r.blocks| :: Some(c.id) in r.blocks[i].outputs
    {
      CopiedConnectionStaysInside(plot, selected, sel, c);
    }
  }

  // Reference integrity of a plot, and of what copying takes from it.

  /** Every filled port slot of `plot` names one of its connections. */
  ghost predicate SlotsResolve(plot: Plot)
  {
    && (forall id, k | id in plot.blocks && 0 <= k < |plot.blocks[id].inputs| && plot.blocks[id].inputs[k].Some? ::
          plot.blocks[id].inputs[k].value in plot.connections)
    && (forall id, k | id in plot.blocks && 0 <= k < |plot.blocks[id].outputs| && plot.blocks[id].outputs[k].Some? ::
          plot.blocks[id].outputs[k].value in plot.connections)
  }

  /** Every connection starts at an output slot of a block of `plot` that holds it. */
  ghost predicate OriginsHeld(plot: Plot)
  {
    forall cid | cid in plot.connections ::
      && plot.connections[cid].origin.block in plot.blocks
      && plot.connections[cid].origin.index < |plot.blocks[plot.connections[cid].origin.block].outputs|
      && plot.blocks[plot.connections[cid].origin.block].outputs[plot.connections[cid].origin.index] == Some(cid)
  }

  /** A connection held by an output slot starts at that slot's block. */
  ghost predicate OutputsOriginate(plot: Plot)
  {
    forall id, k | id in plot.blocks && 0 <= k < |plot.blocks[id].outputs| && plot.blocks[id].outputs[k].Some?
                   && plot.blocks[id].outputs[k].value in plot.connections ::
      plot.connections[plot.blocks[id].outputs[k].value].origin.block == id
  }

  /** A connection held by an input slot has a branch ending at that slot's block. */
  ghost predicate InputsReached(plot: Plot)
  {
    forall id, k | id in plot.blocks && 0 <= k < |plot.blocks[id].inputs| && plot.blocks[id].inputs[k].Some?
                   && plot.blocks[id].inputs[k].value in plot.connections ::
      exists s | s in plot.connections[plot.blocks[id].inputs[k].value].segments :: s.Endpoint? && s.port.block == id
  }

  /** The graph invariants an editor plot keeps: entities are stored under
      their ids, and port slots and connections refer to each other. */
  ghost predicate WellFormed(plot: Plot)
  {
    && BlocksKeyedById(plot) && ConnectionsKeyedById(plot) && SlotsResolve(plot)
    && OriginsHeld(plot) && OutputsOriginate(plot) && InputsReached(plot)
  }

  /** Each of `bs` is the block `plot` stores under its id. */
  ghost predicate FromPlot(plot: Plot, bs: seq<Block>)
  {
    forall i | 0 <= i < |bs| :: bs[i].id in plot.blocks && plot.blocks[bs[i].id] == bs[i]
  }

  lemma {:induction false} SelectedBlocksFromPlot(plot: Plot, items: seq<Selectable>)
    requires BlocksKeyedById(plot)
    ensures FromPlot(plot, SelectedBlocks(plot, items))
  {
    var sel := SelectedBlocks(plot, items);
    forall i | 0 <= i < |sel| ensures sel[i].id in plot.blocks && plot.blocks[sel[i].id] == sel[i] {
      assert sel[i] in sel;
      var j :| 0 <= j < |items| && Copyable(plot, items[j]) && plot.blocks[items[j].block] == sel[i];
    }
  }

  lemma {:induction false} IdListed(cs: seq<Connection>, c: Connection)
    requires c in cs
    ensures c.id in ConnectionIds(cs)
  {
    var j :| 0 <= j < |cs| && cs[j] == c;
    assert ConnectionIds(cs)[j] == c.id;
  }

  /** A filled output slot of a copied block names a collected connection. */
  lemma {:induction false} CopiedOutputSlotInside(plot: Plot, bs: seq<Block>, i: nat, k: nat)
    requires ConnectionsKeyedById(plot) && SlotsResolve(plot) && FromPlot(plot, bs)
    requires i < |bs| && k < |bs[i].outputs|
    ensures var r := CopyBlocks(plot, BlockIds(bs), bs);
            r.0[i].outputs[k].Some? ==> r.0[i].outputs[k].value in ConnectionIds(r.1)
  {
    var selected := BlockIds(bs);
    var r := CopyBlocks(plot, selected, bs);
    var slot := bs[i].outputs[k];
    if r.0[i].outputs[k].Some? {
      assert r.0[i].outputs[k] == slot;
      assert plot.blocks[bs[i].id].outputs[k] == slot;
      CopyBlocksCollectsCarried(plot, selected, bs, i, k);
      PrunedStaysInside(plot, selected, slot);
      IdListed(r.1, Pruned(plot, selected, slot));
    }
  }

  /** A filled input slot of a copied block names a collected connection: the
      connection starts at a copied block and ends at this one, so it is kept. */
  lemma {:induction false} CopiedInputSlotInside(plot: Plot, bs: seq<Block>, i: nat, k: nat)
    requires ConnectionsKeyedById(plot) && SlotsResolve(plot) && OriginsHeld(plot) && InputsReached(plot)
    requires FromPlot(plot, bs)
    requires i < |bs| && k < |bs[i].inputs|
    ensures var r := CopyBlocks(plot, BlockIds(bs), bs);
            r.0[i].inputs[k].Some? ==> r.0[i].inputs[k].value in ConnectionIds(r.1)
  {
    var selected := BlockIds(bs);
    var r := CopyBlocks(plot, selected, bs);
    var slot := bs[i].inputs[k];
    if r.0[i].inputs[k].Some? {
      assert r.0[i].inputs[k] == slot;
      assert plot.blocks[bs[i].id].inputs[k] == slot;
      var c := plot.connections[slot.value];
      var i' :| 0 <= i' < |bs| && selected[i'] == c.origin.block;
      assert bs[i'].outputs[c.origin.index] == slot;
      var s :| s in c.segments && s.Endpoint? && s.port.block == bs[i].id;
      assert selected[i] == bs[i].id;
      assert Carried(plot, selected, slot);
      CopyBlocksCollectsCarried(plot, selected, bs, i', c.origin.index);
      PrunedStaysInside(plot, selected, slot);
      IdListed(r.1, Pruned(plot, selected, slot));
    }
  }

  /** Every filled port slot of the copied blocks names a collected connection. */
  lemma {:induction false} CopiedSlotsInside(plot: Plot, bs: seq<Block>)
    requires ConnectionsKeyedById(plot) && SlotsResolve(plot) && OriginsHeld(plot) && InputsReached(plot)
    requires FromPlot(plot, bs)
    ensures var r := CopyBlocks(plot, BlockIds(bs), bs);
            SlotsInside(r.0, r.1)
  {
    var r := CopyBlocks(plot, BlockIds(bs), bs);
    forall i, k | 0 <= i < |r.0| && 0 <= k < |r.0[i].inputs| && r.0[i].inputs[k].Some?
      ensures r.0[i].inputs[k].value in ConnectionIds(r.1)
    {
      CopiedInputSlotInside(plot, bs, i, k);
    }
    forall i, k | 0 <= i < |r.0| && 0 <= k < |r.0[i].outputs| && r.0[i].outputs[k].Some?
      ensures r.0[i].outputs[k].value in ConnectionIds(r.1)
    {
      CopiedOutputSlotInside(plot, bs, i, k);
    }
  }

  /** A collected connection starts at a copied block. */
  lemma {:induction false} CopiedConnectionStartsInside(plot: Plot, bs: seq<Block>, c: Connection)
    requires OutputsOriginate(plot) && FromPlot(plot, bs)
    requires c in CopyBlocks(plot, BlockIds(bs), bs).1
    ensures c.origin.block in BlockIds(bs)
  {
    var selected := BlockIds(bs);
    CopyBlocksCollectsOnlyCarried(plot, selected, bs, c);
    var i :| 0 <= i < |bs| && CarriedFrom(plot, selected, bs[i], c);
    CarriedStartsAt(plot, selected, bs[i], c);
    assert selected[i] == bs[i].id;
  }

  /** A connection collected from an output slot of `b` starts at `b`. */
  lemma CarriedStartsAt(plot: Plot, selected: seq<Id>, b: Block, c: Connection)
    requires OutputsOriginate(plot) && b.id in plot.blocks && plot.blocks[b.id] == b
    requires CarriedFrom(plot, selected, b, c)
    ensures c.origin.block == b.id
  {
    var k :| 0 <= k < |b.outputs| && Carried(plot, selected, b.outputs[k]) && c == Pruned(plot, selected, b.outputs[k]);
    assert plot.blocks[b.id].outputs[k] == b.outputs[k];
  }

  /** Every collected connection starts and ends at copied blocks. */
  lemma {:induction false} CopiedEndsInside(plot: Plot, bs: seq<Block>)
    requires ConnectionsKeyedById(plot) && OutputsOriginate(plot) && FromPlot(plot, bs)
    ensures var r := CopyBlocks(plot, BlockIds(bs), bs);
            EndsInside(r.0, r.1)
  {
    var r := CopyBlocks(plot, BlockIds(bs), bs);
    assert BlockIds(r.0) == BlockIds(bs);
    forall j | 0 <= j < |r.1|
      ensures r.1[j].origin.block in BlockIds(r.0)
      ensures forall k | 0 <= k < |r.1[j].segments| && r.1[j].segments[k].Endpoint? ::
                r.1[j].segments[k].port.block in BlockIds(r.0)
    {
      CopiedConnectionStartsInside(plot, bs, r.1[j]);
      CopiedConnectionStaysInside(plot, BlockIds(bs), bs, r.1[j]);
      forall k | 0 <= k < |r.1[j].segments| && r.1[j].segments[k].Endpoint?
        ensures r.1[j].segments[k].port.block in BlockIds(r.0)
      {
        assert r.1[j].segments[k] in r.1[j].segments;
      }
    }
  }

  /** Copying from a well-formed plot takes an independent snapshot: every
      filled port slot of the copy names a copied connection, and every copied
      connection starts and ends at copied blocks. */
  lemma CaptureIsSelfContained(plot: Plot)
    requires WellFormed(plot)
    ensures Capture(plot).Blocks? ==> SelfContained(Capture(plot).blocks, Capture(plot).connections)
  {
    var r := Capture(plot);
    if plot.selection.Many? {
      var sel := SelectedBlocks(plot, plot.selection.items);
      SelectedBlocksFromPlot(plot, plot.selection.items);
      CopiedSlotsInside(plot, sel);
      CopiedEndsInside(plot, sel);
    } else if r.Blocks? {
      assert IsDisconnectedCopy(r.blocks[0], plot.blocks[plot.selection.item.block]);
      assert r.connections == [];
    }
  }

  /** The copy of a well-formed plot carries only ids the plot holds. */
  lemma CaptureIdsFromPlot(plot: Plot)
    requires BlocksKeyedById(plot) && ConnectionsKeyedById(plot) && SlotsResolve(plot)
    ensures Capture(plot).Blocks? ==>
              && (forall i | 0 <= i < |Capture(plot).blocks| :: Capture(plot).blocks[i].id in plot.blocks)
              && (forall j | 0 <= j < |Capture(plot).connections| :: Capture(plot).connections[j].id in plot.connections)
  {
    var r := Capture(plot);
    if plot.selection.Many? {
      var sel := SelectedBlocks(plot, plot.selection.items);
      var selected := BlockIds(sel);
      SelectedBlocksFromPlot(plot, plot.selection.items);
      forall j | 0 <= j < |r.connections| ensures r.connections[j].id in plot.connections {
        var c := r.connections[j];
        CopyBlocksCollectsOnlyCarried(plot, selected, sel, c);
        var i :| 0 <= i < |sel| && CarriedFrom(plot, selected, sel[i], c);
        var k :| 0 <= k < |sel[i].outputs| && Carried(plot, selected, sel[i].outputs[k])
                 && c == Pruned(plot, selected, sel[i].outputs[k]);
      }
    } else if r.Blocks? {
      assert IsDisconnectedCopy(r.blocks[0], plot.blocks[plot.selection.item.block]);
    }
  }

  // ---------------------------------------------------------------------------
  // Pasting

  function Positions(bs: seq<Block>): (r: seq<Vec2>)
    ensures |r| == |bs| && forall i | 0 <= i < |bs| :: r[i] == bs[i].position
  {
    seq(|bs|, i requires 0 <= i < |bs| => bs[i].position)
  }

  /** How far a paste at `target` moves everything: from the least block
      position to the target. */
  function PasteOffset(bs: seq<Block>, target: Vec2): Vec2
  {
    Sub(target, MinPosition(Positions(bs)))
  }

  function ShiftSegment(s: Segment, offset: Vec2): Segment
  {
    match s
    case Waypoint(p) => Waypoint(Add(p, offset))
    case Endpoint(_) => s
  }

  /** `c` with every bend point moved by `offset`; branch ends have no position. */
  function Shifted(c: Connection, offset: Vec2): (r: Connection)
    ensures r.id == c.id && r.origin == c.origin && |r.segments| == |c.segments|
    ensures forall k | 0 <= k < |c.segments| ::
              if c.segments[k].Waypoint? then r.segments[k] == Waypoint(Add(c.segments[k].position, offset))
              else r.segments[k] == c.segments[k]
  {
    c.(segments := seq(|c.segments|, k requires 0 <= k < |c.segments| => ShiftSegment(c.segments[k], offset)))
  }

  /** `refactor_id(oldId, newId)` on every connection. */
  function RefactorAll(cs: seq<Connection>, oldId: Id, newId: Id): (r: seq<Connection>)
    ensures |r| == |cs|
  {
    seq(|cs|, j requires 0 <= j < |cs| => RefactorId(cs[j], oldId, newId))
  }

  /** The slot rewrite for one connection, `oldId` to `newId`, on every block. */
  function RewireAll(bs: seq<Block>, oldId: Id, newId: Id): (r: seq<Block>)
    ensures |r| == |bs|
  {
    seq(|bs|, i requires 0 <= i < |bs| => RenameSlots(map[oldId := newId], bs[i]))
  }

  /** First pass of `prepare_pasting`: each block in turn takes a fresh id, moves
      by `offset` and is highlighted, and every connection end at its old id is
      moved to the new one at once. */
  function RelocateBlocks(bs: seq<Block>, cs: seq<Connection>, offset: Vec2, g: IdGen): (r: (seq<Block>, seq<Connection>, IdGen))
    ensures |r.0| == |bs| && |r.1| == |cs| && r.2.next == g.next + |bs|
    ensures forall i | 0 <= i < |bs| ::
              r.0[i] == bs[i].(id := g.next + i, position := Add(bs[i].position, offset), highlighted := true)
    ensures forall j | 0 <= j < |cs| :: r.1[j].id == cs[j].id
    ensures forall j | 0 <= j < |cs| :: |r.1[j].segments| == |cs[j].segments|
    ensures forall j, k | 0 <= j < |cs| && 0 <= k < |cs[j].segments| && cs[j].segments[k].Waypoint? ::
              r.1[j].segments[k] == cs[j].segments[k]
    decreases |bs|
  {
    if bs == [] then ([], cs, g)
    else
      var (id, g1) := NewId(g);
      var moved := bs[0].(id := id, position := Add(bs[0].position, offset), highlighted := true);
      var rest := RelocateBlocks(bs[1..], RefactorAll(cs, bs[0].id, id), offset, g1);
      ([moved] + rest.0, rest.1, rest.2)
  }

  /** Second pass of `prepare_pasting`: each connection in turn takes a fresh id
      and has its bend points moved by `offset`, and every block port slot
      holding its old id is given the new one. */
  function RelabelConnections(cs: seq<Connection>, bs: seq<Block>, offset: Vec2, g: IdGen): (r: (seq<Connection>, seq<Block>, IdGen))
    ensures |r.0| == |cs| && |r.1| == |bs| && r.2.next == g.next + |cs|
    ensures forall j | 0 <= j < |cs| :: r.0[j] == Shifted(cs[j], offset).(id := g.next + j)
    ensures forall i | 0 <= i < |bs| :: r.1[i].(inputs := bs[i].inputs, outputs := bs[i].outputs) == bs[i]
    ensures forall i | 0 <= i < |bs| :: |r.1[i].inputs| == |bs[i].inputs| && |r.1[i].outputs| == |bs[i].outputs|
    ensures forall i, k | 0 <= i < |bs| && 0 <= k < |bs[i].inputs| :: r.1[i].inputs[k].None? == bs[i].inputs[k].None?
    ensures forall i, k | 0 <= i < |bs| && 0 <= k < |bs[i].outputs| :: r.1[i].outputs[k].None? == bs[i].outputs[k].None?
    decreases |cs|
  {
    if cs == [] then ([], bs, g)
    else
      var (id, g1) := NewId(g);
      var relabelled := Shifted(cs[0], offset).(id := id);
      var rest := RelabelConnections(cs[1..], RewireAll(bs, cs[0].id, id), offset, g1);
      ([relabelled] + rest.0, rest.1, rest.2)
  }

  /** The result of `prepare_pasting` and the allocator state after it. */
  datatype Prepared = Prepared(blocks: seq<Block>, connections: seq<Connection>, next: IdGen)

  /** `prepare_pasting(target)`: all blocks first, then all connections. */
  function PreparePasting(bs: seq<Block>, cs: seq<Connection>, target: Vec2, g: IdGen): (r: Prepared)
    ensures |r.blocks| == |bs| && |r.connections| == |cs|
    ensures r.next.next == g.next + |bs| + |cs|
    ensures forall i | 0 <= i < |bs| :: r.blocks[i].id == g.next + i
    ensures forall j | 0 <= j < |cs| :: r.connections[j].id == g.next + |bs| + j
    ensures forall i | 0 <= i < |bs| ::
              r.blocks[i].position == Add(bs[i].position, PasteOffset(bs, target)) && r.blocks[i].highlighted
  {
    var offset := PasteOffset(bs, target);
    var (bs1, cs1, g1) := RelocateBlocks(bs, cs, offset, g);
    var (cs2, bs2, g2) := RelabelConnections(cs1, bs1, offset, g1);
    Prepared(bs2, cs2, g2)
  }

  // ---------------------------------------------------------------------------
  // What the two passes of `prepare_pasting` amount to

  /** The simultaneous renaming that gives the `i`-th of `ids` the identifier
      `base + i`; an identifier listed more than once keeps its first position's. */
  function Renaming(ids: seq<Id>, base: nat): map<Id, Id>
  {
    if ids == [] then map[]
    else Renaming(ids[1..], base + 1)[ids[0] := base]
  }

  /** `Renaming(ids, base)` renames exactly the listed identifiers, each to
      `base` plus its first position in `ids`. */
  lemma {:induction false} RenamingFacts(ids: seq<Id>, base: nat)
    ensures forall x | x in Renaming(ids, base) :: x in ids
    ensures forall i | 0 <= i < |ids| :: ids[i] in Renaming(ids, base)
    ensures forall x | x in Renaming(ids, base) ::
              exists i | 0 <= i < |ids| :: ids[i] == x && Renaming(ids, base)[x] == base + i
                                        && forall j | 0 <= j < i :: ids[j] != x
    decreases |ids|
  {
    if ids != [] {
      var rest := Renaming(ids[1..], base + 1);
      RenamingFacts(ids[1..], base + 1);
      forall x | x in Renaming(ids, base)
        ensures exists i | 0 <= i < |ids| :: ids[i] == x && Renaming(ids, base)[x] == base + i
                                           && forall j | 0 <= j < i :: ids[j] != x
      {
        if x == ids[0] {
          assert Renaming(ids, base)[x] == base + 0;
        } else {
          var i :| 0 <= i < |ids| - 1 && ids[1..][i] == x && rest[x] == base + 1 + i
                   && forall j | 0 <= j < i :: ids[1..][j] != x;
          assert ids[i + 1] == x && Renaming(ids, base)[x] == base + (i + 1);
          assert forall j | 1 <= j < i + 1 :: ids[j] == ids[1..][j - 1];
        }
      }
    }
  }

  /** Renaming by `Renaming(ids, base)`, all of `ids` below `base`, removes every
      listed id: a listed one becomes `base` plus its first position, any other
      stays as it was. */
  lemma RenamedIdFacts(ids: seq<Id>, base: nat, x: Id)
    requires forall i | 0 <= i < |ids| :: ids[i] < base
    ensures Rename(Renaming(ids, base), x) !in ids
    ensures x in ids ==> exists j | 0 <= j < |ids| :: ids[j] == x && Rename(Renaming(ids, base), x) == base + j
    ensures x !in ids ==> Rename(Renaming(ids, base), x) == x
  {
    var m := Renaming(ids, base);
    RenamingFacts(ids, base);
    if x in m {
      var j :| 0 <= j < |ids| && ids[j] == x && m[x] == base + j;
      assert Rename(m, x) == base + j;
    }
  }

  /** A slot renamed onto pasted ids `newIds` (the `j`-th listed id becoming
      `newIds[j]`): empty stays empty, no listed id survives, and a listed id
      becomes the pasted id at its first position. */
  lemma RenamedSlotLandsOn(ids: seq<Id>, base: nat, newIds: seq<Id>, slot: Option<Id>, s: Option<Id>)
    requires forall i | 0 <= i < |ids| :: ids[i] < base
    requires |newIds| == |ids| && forall j | 0 <= j < |ids| :: newIds[j] == base + j
    requires s == RenameSlot(Renaming(ids, base), slot)
    ensures s.None? <==> slot.None?
    ensures s.Some? ==> s.value !in ids
    ensures slot.Some? && slot.value in ids ==>
              exists j | 0 <= j < |ids| :: ids[j] == slot.value && s == Some(newIds[j])
    ensures slot.Some? && slot.value in ids ==> s.value in newIds
  {
    if slot.Some? {
      RenamedIdLandsOn(ids, base, newIds, slot.value, s.value);
      if slot.value in ids {
        RenamedIdFacts(ids, base, slot.value);
        var j :| 0 <= j < |ids| && ids[j] == slot.value && s.value == base + j;
        assert s == Some(newIds[j]);
      }
    }
  }

  /** An id renamed onto pasted ids `newIds`: it is no listed id, and a listed
      one lands among `newIds`. */
  lemma RenamedIdLandsOn(ids: seq<Id>, base: nat, newIds: seq<Id>, x: Id, y: Id)
    requires forall i | 0 <= i < |ids| :: ids[i] < base
    requires |newIds| == |ids| && forall j | 0 <= j < |ids| :: newIds[j] == base + j
    requires y == Rename(Renaming(ids, base), x)
    ensures y !in ids
    ensures x in ids ==> y in newIds
  {
    RenamedIdFacts(ids, base, x);
    if x in ids {
      var j :| 0 <= j < |ids| && ids[j] == x && y == base + j;
      assert newIds[j] == y;
    }
  }

  lemma RenamingUnfold(ids: seq<Id>, base: nat)
    requires |ids| > 0
    ensures Renaming(ids, base) == Renaming(ids[1..], base + 1)[ids[0] := base]
  {
  }

  /** An identifier above every listed one is not renamed. */
  lemma AboveIsNotRenamed(ids: seq<Id>, base: nat, x: Id)
    requires forall i | 0 <= i < |ids| :: ids[i] < x
    ensures x !in Renaming(ids, base)
  {
    RenamingFacts(ids, base);
  }

  lemma RenameAfterRename(m: map<Id, Id>, o: Id, n: Id, x: Id)
    requires n !in m
    ensures Rename(m, Rename(map[o := n], x)) == Rename(m[o := n], x)
  {
  }

  /** Renaming one block and then by `m` is renaming by `m` extended with that
      block, provided the new id is not itself renamed by `m`. */
  lemma RenameEndsAfterRefactor(m: map<Id, Id>, o: Id, n: Id, c: Connection)
    requires n !in m
    ensures RenameEnds(m, RefactorId(c, o, n)) == RenameEnds(m[o := n], c)
  {
    var lhs := RenameEnds(m, RefactorId(c, o, n));
    var rhs := RenameEnds(m[o := n], c);
    RenameAfterRename(m, o, n, c.origin.block);
    forall k | 0 <= k < |c.segments|
      ensures lhs.segments[k] == rhs.segments[k]
    {
      if c.segments[k].Endpoint? {
        RenameAfterRename(m, o, n, c.segments[k].port.block);
      }
    }
  }

  lemma RenameSlotsAfterRename(m: map<Id, Id>, o: Id, n: Id, b: Block)
    requires n !in m
    ensures RenameSlots(m, RenameSlots(map[o := n], b)) == RenameSlots(m[o := n], b)
  {
    var lhs := RenameSlots(m, RenameSlots(map[o := n], b));
    var rhs := RenameSlots(m[o := n], b);
    forall k | 0 <= k < |b.inputs|
      ensures lhs.inputs[k] == rhs.inputs[k]
    {
      if b.inputs[k].Some? {
        RenameAfterRename(m, o, n, b.inputs[k].value);
      }
    }
    forall k | 0 <= k < |b.outputs|
      ensures lhs.outputs[k] == rhs.outputs[k]
    {
      if b.outputs[k].Some? {
        RenameAfterRename(m, o, n, b.outputs[k].value);
      }
    }
  }

  /** Every connection's ends renamed by `m` at once. */
  function RenameAllEnds(m: map<Id, Id>, cs: seq<Connection>): (r: seq<Connection>)
    ensures |r| == |cs|
  {
    seq(|cs|, j requires 0 <= j < |cs| => RenameEnds(m, cs[j]))
  }

  /** Every block's port slots renamed by `m` at once. */
  function RenameAllSlots(m: map<Id, Id>, bs: seq<Block>): (r: seq<Block>)
    ensures |r| == |bs|
  {
    seq(|bs|, i requires 0 <= i < |bs| => RenameSlots(m, bs[i]))
  }

  lemma RenameAllEndsAfterRefactor(m: map<Id, Id>, o: Id, n: Id, cs: seq<Connection>)
    requires n !in m
    ensures RenameAllEnds(m, RefactorAll(cs, o, n)) == RenameAllEnds(m[o := n], cs)
  {
    forall j | 0 <= j < |cs|
      ensures RenameAllEnds(m, RefactorAll(cs, o, n))[j] == RenameAllEnds(m[o := n], cs)[j]
    {
      RenameEndsAfterRefactor(m, o, n, cs[j]);
    }
  }

  lemma RenameAllSlotsAfterRewire(m: map<Id, Id>, o: Id, n: Id, bs: seq<Block>)
    requires n !in m
    ensures RenameAllSlots(m, RewireAll(bs, o, n)) == RenameAllSlots(m[o := n], bs)
  {
    forall i | 0 <= i < |bs|
      ensures RenameAllSlots(m, RewireAll(bs, o, n))[i] == RenameAllSlots(m[o := n], bs)[i]
    {
      RenameSlotsAfterRename(m, o, n, bs[i]);
    }
  }

  lemma RenameAllEndsEmpty(cs: seq<Connection>)
    ensures RenameAllEnds(map[], cs) == cs
  {
    forall j | 0 <= j < |cs|
      ensures RenameAllEnds(map[], cs)[j] == cs[j]
    {
      assert RenameEnds(map[], cs[j]).segments == cs[j].segments;
    }
  }

  lemma RenameAllSlotsEmpty(bs: seq<Block>)
    ensures RenameAllSlots(map[], bs) == bs
  {
    forall i | 0 <= i < |bs|
      ensures RenameAllSlots(map[], bs)[i] == bs[i]
    {
      assert RenameSlots(map[], bs[i]).inputs == bs[i].inputs;
      assert RenameSlots(map[], bs[i]).outputs == bs[i].outputs;
    }
  }

  /** The block pass, one `refactor_id` at a time, renames every connection end
      exactly as the simultaneous renaming of the old block ids does, as long as
      the old ids predate the allocator state. */
  lemma {:induction false} RelocateBlocksRenamesEnds(bs: seq<Block>, cs: seq<Connection>, offset: Vec2, g: IdGen)
    requires forall i | 0 <= i < |bs| :: bs[i].id < g.next
    ensures RelocateBlocks(bs, cs, offset, g).1 == RenameAllEnds(Renaming(BlockIds(bs), g.next), cs)
    decreases |bs|
  {
    if bs == [] {
      RenameAllEndsEmpty(cs);
    } else {
      var id := g.next;
      var g1 := IdGen(g.next + 1);
      assert NewId(g) == (id, g1);
      var renamed := RefactorAll(cs, bs[0].id, id);
      assert RelocateBlocks(bs, cs, offset, g).1 == RelocateBlocks(bs[1..], renamed, offset, g1).1;
      RelocateBlocksRenamesEnds(bs[1..], renamed, offset, g1);
      var ids := BlockIds(bs);
      assert BlockIds(bs[1..]) == ids[1..];
      var m' := Renaming(ids[1..], g.next + 1);
      assert RelocateBlocks(bs[1..], renamed, offset, g1).1 == RenameAllEnds(m', renamed);
      AboveIsNotRenamed(ids[1..], g.next + 1, id);
      RenamingUnfold(ids, g.next);
      RenameAllEndsAfterRefactor(m', bs[0].id, id, cs);
    }
  }

  /** The connection pass, one slot rewrite at a time, renames every port slot
      exactly as the simultaneous renaming of the old connection ids does, as
      long as the old ids predate the allocator state. */
  lemma {:induction false} RelabelConnectionsRenamesSlots(cs: seq<Connection>, bs: seq<Block>, offset: Vec2, g: IdGen)
    requires forall j | 0 <= j < |cs| :: cs[j].id < g.next
    ensures RelabelConnections(cs, bs, offset, g).1 == RenameAllSlots(Renaming(ConnectionIds(cs), g.next), bs)
    decreases |cs|
  {
    if cs == [] {
      RenameAllSlotsEmpty(bs);
    } else {
      var id := g.next;
      var g1 := IdGen(g.next + 1);
      assert NewId(g) == (id, g1);
      var rewired := RewireAll(bs, cs[0].id, id);
      assert RelabelConnections(cs, bs, offset, g).1 == RelabelConnections(cs[1..], rewired, offset, g1).1;
      RelabelConnectionsRenamesSlots(cs[1..], rewired, offset, g1);
      var ids := ConnectionIds(cs);
      assert ConnectionIds(cs[1..]) == ids[1..];
      var m' := Renaming(ids[1..], g.next + 1);
      assert RelabelConnections(cs[1..], rewired, offset, g1).1 == RenameAllSlots(m', rewired);
      AboveIsNotRenamed(ids[1..], g.next + 1, id);
      RenamingUnfold(ids, g.next);
      RenameAllSlotsAfterRewire(m', cs[0].id, id, bs);
    }
  }

  /** Every block and connection of the clipboard carries an id handed out
      before allocator state `g`. */
  ghost predicate OwnIdsBelow(bs: seq<Block>, cs: seq<Connection>, g: IdGen)
  {
    (forall i | 0 <= i < |bs| :: bs[i].id < g.next) && (forall j | 0 <= j < |cs| :: cs[j].id < g.next)
  }

  /** The blocks of `prepare_pasting` as one simultaneous step: block `i`
      becomes block `g.next + i`, its port slots follow the connection renaming,
      and it moves by the paste offset. */
  lemma {:induction false} PreparePastingRenamesBlocks(bs: seq<Block>, cs: seq<Connection>, target: Vec2, g: IdGen)
    requires OwnIdsBelow(bs, cs, g)
    ensures var r := PreparePasting(bs, cs, target, g);
            var connectionRenaming := Renaming(ConnectionIds(cs), g.next + |bs|);
            forall i | 0 <= i < |bs| ::
              r.blocks[i] == RenameSlots(connectionRenaming, bs[i])
                               .(id := g.next + i, position := Add(bs[i].position, PasteOffset(bs, target)), highlighted := true)
  {
    var offset := PasteOffset(bs, target);
    PreparedBlocksRenamed(bs, cs, offset, g);
    RenamingRelocated(Renaming(ConnectionIds(cs), g.next + |bs|), bs, RelocateBlocks(bs, cs, offset, g).0,
                      PreparePasting(bs, cs, target, g).blocks, offset, g);
  }

  /** The blocks of `prepare_pasting` are the relocated blocks with their slots
      renamed by the connection renaming. */
  lemma {:induction false} PreparedBlocksRenamed(bs: seq<Block>, cs: seq<Connection>, offset: Vec2, g: IdGen)
    requires OwnIdsBelow(bs, cs, g)
    ensures var (bs1, cs1, g1) := RelocateBlocks(bs, cs, offset, g);
            RelabelConnections(cs1, bs1, offset, g1).1 == RenameAllSlots(Renaming(ConnectionIds(cs), g.next + |bs|), bs1)
  {
    var (bs1, cs1, g1) := RelocateBlocks(bs, cs, offset, g);
    assert ConnectionIds(cs1) == ConnectionIds(cs);
    RelabelConnectionsRenamesSlots(cs1, bs1, offset, g1);
  }

  /** Renaming the slots of relocated blocks is relocating renamed blocks. */
  lemma {:induction false} RenamingRelocated(m: map<Id, Id>, bs: seq<Block>, bs1: seq<Block>, rb: seq<Block>, offset: Vec2, g: IdGen)
    requires |bs1| == |bs| && rb == RenameAllSlots(m, bs1)
    requires forall i | 0 <= i < |bs| ::
               bs1[i] == bs[i].(id := g.next + i, position := Add(bs[i].position, offset), highlighted := true)
    ensures forall i | 0 <= i < |bs| ::
              rb[i] == RenameSlots(m, bs[i]).(id := g.next + i, position := Add(bs[i].position, offset), highlighted := true)
  {
    forall i | 0 <= i < |bs|
      ensures rb[i] == RenameSlots(m, bs[i]).(id := g.next + i, position := Add(bs[i].position, offset), highlighted := true)
    {
      assert rb[i] == RenameSlots(m, bs1[i]);
    }
  }

  /** The connections of `prepare_pasting` as one simultaneous step: connection
      `j` becomes connection `g.next + |bs| + j`, its ends follow the block
      renaming, and its bend points move by the paste offset. */
  lemma {:induction false} PreparePastingRenamesConnections(bs: seq<Block>, cs: seq<Connection>, target: Vec2, g: IdGen)
    requires forall i | 0 <= i < |bs| :: bs[i].id < g.next
    ensures var r := PreparePasting(bs, cs, target, g);
            var blockRenaming := Renaming(BlockIds(bs), g.next);
            forall j | 0 <= j < |cs| ::
              r.connections[j] == Shifted(RenameEnds(blockRenaming, cs[j]), PasteOffset(bs, target)).(id := g.next + |bs| + j)
  {
    var offset := PasteOffset(bs, target);
    RelocateBlocksRenamesEnds(bs, cs, offset, g);
  }

  /** `prepare_pasting` as one simultaneous step: block `i` becomes block
      `g.next + i`, connection `j` becomes connection `g.next + |bs| + j`, every
      port slot follows the connection renaming, every connection end follows
      the block renaming, and everything moves by the paste offset. */
  lemma {:induction false} PreparePastingRenames(bs: seq<Block>, cs: seq<Connection>, target: Vec2, g: IdGen)
    requires OwnIdsBelow(bs, cs, g)
    ensures var r := PreparePasting(bs, cs, target, g);
            var offset := PasteOffset(bs, target);
            var blockRenaming := Renaming(BlockIds(bs), g.next);
            var connectionRenaming := Renaming(ConnectionIds(cs), g.next + |bs|);
            && (forall i | 0 <= i < |bs| ::
                  r.blocks[i] == RenameSlots(connectionRenaming, bs[i])
                                   .(id := g.next + i, position := Add(bs[i].position, offset), highlighted := true))
            && (forall j | 0 <= j < |cs| ::
                  r.connections[j] == Shifted(RenameEnds(blockRenaming, cs[j]), offset).(id := g.next + |bs| + j))
  {
    PreparePastingRenamesBlocks(bs, cs, target, g);
    PreparePastingRenamesConnections(bs, cs, target, g);
  }

  /** Pasted ids are fresh: none was handed out before the paste, and no two of
      them are equal. */
  lemma PasteIdsAreFresh(bs: seq<Block>, cs: seq<Connection>, target: Vec2, g: IdGen, seen: set<Id>)
    requires Below(g, seen)
    ensures var r := PreparePasting(bs, cs, target, g);
            && (forall i | 0 <= i < |bs| :: r.blocks[i].id !in seen)
            && (forall j | 0 <= j < |cs| :: r.connections[j].id !in seen)
            && (forall i, i' | 0 <= i < i' < |bs| :: r.blocks[i].id != r.blocks[i'].id)
            && (forall j, j' | 0 <= j < j' < |cs| :: r.connections[j].id != r.connections[j'].id)
            && (forall i, j | 0 <= i < |bs| && 0 <= j < |cs| :: r.blocks[i].id != r.connections[j].id)
            && (forall i | 0 <= i < |bs| :: r.blocks[i].id < r.next.next)
            && (forall j | 0 <= j < |cs| :: r.connections[j].id < r.next.next)
  {
  }

  /** Pasting moves everything by one offset: every block and every bend point
      moves by it. */
  lemma PasteTranslatesUniformly(bs: seq<Block>, cs: seq<Connection>, target: Vec2, g: IdGen)
    ensures var r := PreparePasting(bs, cs, target, g);
            var offset := PasteOffset(bs, target);
            && (forall i | 0 <= i < |bs| :: r.blocks[i].position == Add(bs[i].position, offset) && r.blocks[i].highlighted)
            && (forall j, k | 0 <= j < |cs| && 0 <= k < |cs[j].segments| && cs[j].segments[k].Waypoint? ::
                  r.connections[j].segments[k] == Waypoint(Add(cs[j].segments[k].position, offset)))
  {
    var r := PreparePasting(bs, cs, target, g);
    var offset := PasteOffset(bs, target);
    var (bs1, cs1, g1) := RelocateBlocks(bs, cs, offset, g);
    forall j, k | 0 <= j < |cs| && 0 <= k < |cs[j].segments| && cs[j].segments[k].Waypoint?
      ensures r.connections[j].segments[k] == Waypoint(Add(cs[j].segments[k].position, offset))
    {
      assert cs1[j].segments[k] == cs[j].segments[k];
    }
  }

  /** The least pasted block position is the target: no block lands before it
      in the order `min` uses, and some block lands on it. */
  lemma PasteLandsOnTarget(bs: seq<Block>, cs: seq<Connection>, target: Vec2, g: IdGen)
    ensures var r := PreparePasting(bs, cs, target, g);
            && (forall i | 0 <= i < |bs| :: LexLe(target, r.blocks[i].position))
            && (|bs| > 0 ==> exists i | 0 <= i < |bs| :: r.blocks[i].position == target)
  {
    var r := PreparePasting(bs, cs, target, g);
    if |bs| > 0 {
      var i :| 0 <= i < |bs| && Positions(bs)[i] == MinPosition(Positions(bs));
      assert r.blocks[i].position == target;
    }
  }

  /** Block slots renamed by the connection renaming onto pasted connections
      `rcs`: no clipboard connection id survives, empty slots stay empty, and
      a clipboard connection's id becomes its pasted counterpart's. */
  lemma SlotsLandOnPasted(bs: seq<Block>, cs: seq<Connection>, g: IdGen, rbs: seq<Block>, rcs: seq<Connection>)
    requires OwnIdsBelow(bs, cs, g) && PastedAsRenamed(bs, cs, g, rbs, rcs)
    ensures forall i | 0 <= i < |bs| :: |rbs[i].inputs| == |bs[i].inputs| && |rbs[i].outputs| == |bs[i].outputs|
    ensures forall i, k | 0 <= i < |bs| && 0 <= k < |bs[i].inputs| ::
              SlotLandsOn(cs, rcs, bs[i].inputs[k], rbs[i].inputs[k])
    ensures forall i, k | 0 <= i < |bs| && 0 <= k < |bs[i].outputs| ::
              SlotLandsOn(cs, rcs, bs[i].outputs[k], rbs[i].outputs[k])
  {
    var base := g.next + |bs|;
    var cids := ConnectionIds(cs);
    var cr := Renaming(cids, base);
    forall i, k | 0 <= i < |bs| && 0 <= k < |bs[i].inputs|
      ensures SlotLandsOn(cs, rcs, bs[i].inputs[k], rbs[i].inputs[k])
    {
      assert rbs[i].inputs[k] == RenameSlot(cr, bs[i].inputs[k]);
      RenamedSlotLandsOn(cids, base, ConnectionIds(rcs), bs[i].inputs[k], rbs[i].inputs[k]);
    }
    forall i, k | 0 <= i < |bs| && 0 <= k < |bs[i].outputs|
      ensures SlotLandsOn(cs, rcs, bs[i].outputs[k], rbs[i].outputs[k])
    {
      assert rbs[i].outputs[k] == RenameSlot(cr, bs[i].outputs[k]);
      RenamedSlotLandsOn(cids, base, ConnectionIds(rcs), bs[i].outputs[k], rbs[i].outputs[k]);
    }
  }

  /** Slot `before` of a clipboard block became `after` on pasting: empty stays
      empty, no clipboard connection id survives, and a clipboard connection's
      id becomes the id of that connection's pasted copy. */
  ghost predicate SlotLandsOn(cs: seq<Connection>, rcs: seq<Connection>, before: Option<Id>, after: Option<Id>)
    requires |rcs| == |cs|
  {
    && (after.None? <==> before.None?)
    && (after.Some? ==> after.value !in ConnectionIds(cs))
    && (before.Some? && before.value in ConnectionIds(cs) ==>
          exists j | 0 <= j < |cs| :: cs[j].id == before.value && after == Some(rcs[j].id))
  }

  /** Connection ends renamed by the block renaming onto pasted blocks `rbs`:
      no clipboard block id survives, and an end at a clipboard block is at a
      pasted one. */
  lemma EndsLandOnPasted(bs: seq<Block>, cs: seq<Connection>, g: IdGen, rbs: seq<Block>, rcs: seq<Connection>)
    requires OwnIdsBelow(bs, cs, g) && PastedAsRenamed(bs, cs, g, rbs, rcs)
    ensures forall j | 0 <= j < |cs| :: EndLandsOn(bs, rbs, cs[j].origin.block, rcs[j].origin.block)
    ensures forall j, k | 0 <= j < |cs| && 0 <= k < |cs[j].segments| && rcs[j].segments[k].Endpoint? ::
              EndLandsOn(bs, rbs, cs[j].segments[k].port.block, rcs[j].segments[k].port.block)
  {
    var base := g.next;
    var bids := BlockIds(bs);
    forall j | 0 <= j < |cs|
      ensures EndLandsOn(bs, rbs, cs[j].origin.block, rcs[j].origin.block)
    {
      RenamedIdLandsOn(bids, base, BlockIds(rbs), cs[j].origin.block, rcs[j].origin.block);
    }
    forall j, k | 0 <= j < |cs| && 0 <= k < |cs[j].segments| && rcs[j].segments[k].Endpoint?
      ensures EndLandsOn(bs, rbs, cs[j].segments[k].port.block, rcs[j].segments[k].port.block)
    {
      RenamedIdLandsOn(bids, base, BlockIds(rbs), cs[j].segments[k].port.block, rcs[j].segments[k].port.block);
    }
  }

  /** A connection end at block `before` is at block `after` after pasting: no
      clipboard block id survives, and an end at a clipboard block is at a
      pasted block. */
  ghost predicate EndLandsOn(bs: seq<Block>, rbs: seq<Block>, before: Id, after: Id)
  {
    after !in BlockIds(bs) && (before in BlockIds(bs) ==> after in BlockIds(rbs))
  }

  /** `rbs` and `rcs` are clipboard blocks `bs` and connections `cs` renamed as
      pasting renames them: block `i` gets id `g.next + i`, connection `j` id
      `g.next + |bs| + j`, port slots follow the connection renaming and
      connection ends the block renaming. */
  ghost predicate PastedAsRenamed(bs: seq<Block>, cs: seq<Connection>, g: IdGen, rbs: seq<Block>, rcs: seq<Connection>)
  {
    var blockRenaming := Renaming(BlockIds(bs), g.next);
    var connectionRenaming := Renaming(ConnectionIds(cs), g.next + |bs|);
    && |rbs| == |bs| && |rcs| == |cs|
    && (forall i | 0 <= i < |bs| :: rbs[i].id == g.next + i)
    && (forall j | 0 <= j < |cs| :: rcs[j].id == g.next + |bs| + j)
    && (forall i | 0 <= i < |bs| :: rbs[i].inputs == RenameSlotSeq(connectionRenaming, bs[i].inputs))
    && (forall i | 0 <= i < |bs| :: rbs[i].outputs == RenameSlotSeq(connectionRenaming, bs[i].outputs))
    && (forall j | 0 <= j < |cs| :: rcs[j].origin.block == Rename(blockRenaming, cs[j].origin.block))
    && (forall j | 0 <= j < |cs| :: |rcs[j].segments| == |cs[j].segments|)
    && (forall j, k | 0 <= j < |cs| && 0 <= k < |cs[j].segments| && rcs[j].segments[k].Endpoint? ::
          cs[j].segments[k].Endpoint? &&
          rcs[j].segments[k].port.block == Rename(blockRenaming, cs[j].segments[k].port.block))
  }

  lemma PastedRenamingFacts(bs: seq<Block>, cs: seq<Connection>, target: Vec2, g: IdGen)
    requires OwnIdsBelow(bs, cs, g)
    ensures var r := PreparePasting(bs, cs, target, g);
            PastedAsRenamed(bs, cs, g, r.blocks, r.connections)
  {
    var r := PreparePasting(bs, cs, target, g);
    var offset := PasteOffset(bs, target);
    var br := Renaming(BlockIds(bs), g.next);
    PreparePastingRenames(bs, cs, target, g);
    forall j, k | 0 <= j < |cs| && 0 <= k < |cs[j].segments| && r.connections[j].segments[k].Endpoint?
      ensures cs[j].segments[k].Endpoint? &&
              r.connections[j].segments[k].port.block == Rename(br, cs[j].segments[k].port.block)
    {
      assert r.connections[j].segments[k] == ShiftSegment(RenameSegment(br, cs[j].segments[k]), offset);
    }
  }

  /** No stale reference after renaming: no slot holds a clipboard connection
      id and no end a clipboard block id; each such reference now names the
      renamed entity, and empty slots stay empty. */
  ghost predicate NoStaleIds(bs: seq<Block>, cs: seq<Connection>, rbs: seq<Block>, rcs: seq<Connection>)
    requires |rbs| == |bs| && |rcs| == |cs|
    requires forall i | 0 <= i < |bs| :: |rbs[i].inputs| == |bs[i].inputs| && |rbs[i].outputs| == |bs[i].outputs|
  {
    && (forall i, k | 0 <= i < |bs| && 0 <= k < |bs[i].inputs| :: SlotLandsOn(cs, rcs, bs[i].inputs[k], rbs[i].inputs[k]))
    && (forall i, k | 0 <= i < |bs| && 0 <= k < |bs[i].outputs| :: SlotLandsOn(cs, rcs, bs[i].outputs[k], rbs[i].outputs[k]))
    && (forall j | 0 <= j < |cs| :: rcs[j].origin.block !in BlockIds(bs))
    && (forall j, k | 0 <= j < |cs| && 0 <= k < |rcs[j].segments| && rcs[j].segments[k].Endpoint? ::
          rcs[j].segments[k].port.block !in BlockIds(bs))
  }

  lemma RenamingLeavesNoStaleIds(bs: seq<Block>, cs: seq<Connection>, g: IdGen, rbs: seq<Block>, rcs: seq<Connection>)
    requires OwnIdsBelow(bs, cs, g)
    requires PastedAsRenamed(bs, cs, g, rbs, rcs)
    ensures forall i | 0 <= i < |bs| :: |rbs[i].inputs| == |bs[i].inputs| && |rbs[i].outputs| == |bs[i].outputs|
    ensures NoStaleIds(bs, cs, rbs, rcs)
  {
    SlotsLandOnPasted(bs, cs, g, rbs, rcs);
    EndsLandOnPasted(bs, cs, g, rbs, rcs);
  }

  /** After pasting, no port slot holds a connection id the clipboard had and no
      connection end names a block id the clipboard had: each such reference
      now names the renamed entity, and empty slots stay empty. */
  lemma PasteLeavesNoStaleIds(bs: seq<Block>, cs: seq<Connection>, target: Vec2, g: IdGen)
    requires OwnIdsBelow(bs, cs, g)
    ensures var r := PreparePasting(bs, cs, target, g);
            && |r.connections| == |cs|
            && (forall i | 0 <= i < |bs| ::
                  |r.blocks[i].inputs| == |bs[i].inputs| && |r.blocks[i].outputs| == |bs[i].outputs|)
            && NoStaleIds(bs, cs, r.blocks, r.connections)
  {
    var r := PreparePasting(bs, cs, target, g);
    PastedRenamingFacts(bs, cs, target, g);
    RenamingLeavesNoStaleIds(bs, cs, g, r.blocks, r.connections);
  }

  /** Every filled port slot of `bs` names one of the connections `cs`. */
  ghost predicate SlotsInside(bs: seq<Block>, cs: seq<Connection>)
  {
    && (forall i, k | 0 <= i < |bs| && 0 <= k < |bs[i].inputs| && bs[i].inputs[k].Some? ::
          bs[i].inputs[k].value in ConnectionIds(cs))
    && (forall i, k | 0 <= i < |bs| && 0 <= k < |bs[i].outputs| && bs[i].outputs[k].Some? ::
          bs[i].outputs[k].value in ConnectionIds(cs))
  }

  /** Every end of the connections `cs` is at one of the blocks `bs`. */
  ghost predicate EndsInside(bs: seq<Block>, cs: seq<Connection>)
  {
    && (forall j | 0 <= j < |cs| :: cs[j].origin.block in BlockIds(bs))
    && (forall j, k | 0 <= j < |cs| && 0 <= k < |cs[j].segments| && cs[j].segments[k].Endpoint? ::
          cs[j].segments[k].port.block in BlockIds(bs))
  }

  /** The clipboard's entities only refer to one another: every filled port slot
      names one of its connections and every connection end one of its blocks. */
  ghost predicate SelfContained(bs: seq<Block>, cs: seq<Connection>)
  {
    SlotsInside(bs, cs) && EndsInside(bs, cs)
  }

  lemma SlotsStayInside(bs: seq<Block>, cs: seq<Connection>, g: IdGen, rbs: seq<Block>, rcs: seq<Connection>)
    requires OwnIdsBelow(bs, cs, g) && PastedAsRenamed(bs, cs, g, rbs, rcs)
    requires SlotsInside(bs, cs)
    ensures SlotsInside(rbs, rcs)
  {
    var base := g.next + |bs|;
    var cids := ConnectionIds(cs);
    var cr := Renaming(cids, base);
    forall i, k | 0 <= i < |rbs| && 0 <= k < |rbs[i].inputs| && rbs[i].inputs[k].Some?
      ensures rbs[i].inputs[k].value in ConnectionIds(rcs)
    {
      assert rbs[i].inputs[k] == RenameSlot(cr, bs[i].inputs[k]);
      RenamedSlotLandsOn(cids, base, ConnectionIds(rcs), bs[i].inputs[k], rbs[i].inputs[k]);
    }
    forall i, k | 0 <= i < |rbs| && 0 <= k < |rbs[i].outputs| && rbs[i].outputs[k].Some?
      ensures rbs[i].outputs[k].value in ConnectionIds(rcs)
    {
      assert rbs[i].outputs[k] == RenameSlot(cr, bs[i].outputs[k]);
      RenamedSlotLandsOn(cids, base, ConnectionIds(rcs), bs[i].outputs[k], rbs[i].outputs[k]);
    }
  }

  lemma EndsStayInside(bs: seq<Block>, cs: seq<Connection>, g: IdGen, rbs: seq<Block>, rcs: seq<Connection>)
    requires OwnIdsBelow(bs, cs, g) && PastedAsRenamed(bs, cs, g, rbs, rcs)
    requires EndsInside(bs, cs)
    ensures EndsInside(rbs, rcs)
  {
    var base := g.next;
    EndsLandOnPasted(bs, cs, g, rbs, rcs);
    forall j | 0 <= j < |rcs|
      ensures rcs[j].origin.block in BlockIds(rbs)
    {
      assert EndLandsOn(bs, rbs, cs[j].origin.block, rcs[j].origin.block);
    }
    forall j, k | 0 <= j < |rcs| && 0 <= k < |rcs[j].segments| && rcs[j].segments[k].Endpoint?
      ensures rcs[j].segments[k].port.block in BlockIds(rbs)
    {
      assert EndLandsOn(bs, rbs, cs[j].segments[k].port.block, rcs[j].segments[k].port.block);
    }
  }

  lemma RenamingKeepsSelfContained(bs: seq<Block>, cs: seq<Connection>, g: IdGen, rbs: seq<Block>, rcs: seq<Connection>)
    requires OwnIdsBelow(bs, cs, g)
    requires SelfContained(bs, cs)
    requires PastedAsRenamed(bs, cs, g, rbs, rcs)
    ensures SelfContained(rbs, rcs)
  {
    SlotsStayInside(bs, cs, g, rbs, rcs);
    EndsStayInside(bs, cs, g, rbs, rcs);
  }

  /** Pasting a self-contained snapshot yields a self-contained subgraph: the
      renamings never leave a reference dangling. */
  lemma PasteKeepsSubgraphSelfContained(bs: seq<Block>, cs: seq<Connection>, target: Vec2, g: IdGen)
    requires OwnIdsBelow(bs, cs, g)
    requires SelfContained(bs, cs)
    ensures var r := PreparePasting(bs, cs, target, g);
            SelfContained(r.blocks, r.connections)
  {
    var r := PreparePasting(bs, cs, target, g);
    PastedRenamingFacts(bs, cs, target, g);
    RenamingKeepsSelfContained(bs, cs, g, r.blocks, r.connections);
  }

  /** The result of `paste_to`: the target plot, the paste action and the
      allocator state after it. */
  datatype Pasted = Pasted(plot: Plot, action: Action, next: IdGen)

  /** `Clipboard::paste_to`: prepares the clipboard's blocks for pasting at
      `target`, clears every highlight on the target plot and selects exactly
      the new blocks, in clipboard order. Only defined on a `Blocks` clipboard. */
  function PasteTo(clip: Clipboard, plot: Plot, target: Vec2, g: IdGen): (r: Pasted)
    requires clip.Blocks?
    ensures |r.action.blocks| == |clip.blocks| && |r.action.connections| == |clip.connections|
    ensures r.next.next == g.next + |clip.blocks| + |clip.connections|
    ensures r.action == PasteBlocks(PreparePasting(clip.blocks, clip.connections, target, g).blocks,
                                    PreparePasting(clip.blocks, clip.connections, target, g).connections)
    ensures r.next == PreparePasting(clip.blocks, clip.connections, target, g).next
    ensures r.plot.blocks.Keys == plot.blocks.Keys
    ensures forall id | id in plot.blocks :: r.plot.blocks[id] == plot.blocks[id].(highlighted := false)
    ensures r.plot.connections == plot.connections
    ensures r.plot.selection.Many? && |r.plot.selection.items| == |clip.blocks|
    ensures forall i | 0 <= i < |clip.blocks| ::
              r.plot.selection.items[i] == SelectedBlock(r.action.blocks[i].id) && r.action.blocks[i].id == g.next + i
  {
    var data := PreparePasting(clip.blocks, clip.connections, target, g);
    var selection := Many(seq(|data.blocks|, i requires 0 <= i < |data.blocks| => SelectedBlock(data.blocks[i].id)));
    var plot' := Unhighlight(plot).(selection := selection);
    Pasted(plot', PasteBlocks(data.blocks, data.connections), data.next)
  }

  /** With the allocator past every id of the target plot, nothing `paste_to`
      hands to the paste action clashes with the plot: no pasted block or
      connection id is a key of the plot, and the pasted ids are pairwise
      distinct. */
  lemma PasteToIdsAreFresh(clip: Clipboard, plot: Plot, target: Vec2, g: IdGen)
    requires clip.Blocks?
    requires Below(g, plot.blocks.Keys + plot.connections.Keys)
    ensures var a := PasteTo(clip, plot, target, g).action;
            && (forall i | 0 <= i < |a.blocks| :: a.blocks[i].id !in plot.blocks && a.blocks[i].id !in plot.connections)
            && (forall j | 0 <= j < |a.connections| ::
                  a.connections[j].id !in plot.blocks && a.connections[j].id !in plot.connections)
            && (forall i, i' | 0 <= i < i' < |a.blocks| :: a.blocks[i].id != a.blocks[i'].id)
            && (forall j, j' | 0 <= j < j' < |a.connections| :: a.connections[j].id != a.connections[j'].id)
            && (forall i, j | 0 <= i < |a.blocks| && 0 <= j < |a.connections| :: a.blocks[i].id != a.connections[j].id)
  {
    PasteIdsAreFresh(clip.blocks, clip.connections, target, g, plot.blocks.Keys + plot.connections.Keys);
  }

  /** Copy then paste: the blocks and connections that pasting a copy of a
      well-formed plot hands to the paste action refer only to one another, and
      none of their ids is an id of the plot copied from, when the allocator is
      past every id of that plot. */
  lemma CopyPasteIsSelfContained(source: Plot, plot: Plot, target: Vec2, g: IdGen)
    requires WellFormed(source) && Capture(source).Blocks?
    requires Below(g, source.blocks.Keys + source.connections.Keys)
    ensures var a := PasteTo(Capture(source), plot, target, g).action;
            && SelfContained(a.blocks, a.connections)
            && (forall i | 0 <= i < |a.blocks| :: a.blocks[i].id !in source.blocks)
            && (forall j | 0 <= j < |a.connections| :: a.connections[j].id !in source.connections)
  {
    var clip := Capture(source);
    CaptureIsSelfContained(source);
    CaptureIdsFromPlot(source);
    assert OwnIdsBelow(clip.blocks, clip.connections, g);
    PasteKeepsSubgraphSelfContained(clip.blocks, clip.connections, target, g);
    PasteIdsAreFresh(clip.blocks, clip.connections, target, g, source.blocks.Keys + source.connections.Keys);
  }
}

=== FILE: geometry.dfy ===
/** Integer points on a plot (`Vector2<i32>` in the editor). */
module Geometry {

  datatype Vec2 = Vec2(x: int, y: int)

  function Add(a: Vec2, b: Vec2): Vec2
  {
    Vec2(a.x + b.x, a.y + b.y)
  }

  function Sub(a: Vec2, b: Vec2): Vec2
  {
    Vec2(a.x - b.x, a.y - b.y)
  }

  /** The order `Iterator::min` uses on positions: lexicographic, x first, then y. */
  predicate LexLe(a: Vec2, b: Vec2)
  {
    a.x < b.x || (a.x == b.x && a.y <= b.y)
  }

  /** `positions.min().unwrap_or_default()`: the least position under `LexLe`,
      or the origin when there is none. */
  function MinPosition(ps: seq<Vec2>): (m: Vec2)
    ensures |ps| == 0 ==> m == Vec2(0, 0)
    ensures |ps| > 0 ==> m in ps
    ensures forall i | 0 <= i < |ps| :: LexLe(m, ps[i])
  {
    if |ps| == 0 then Vec2(0, 0)
    else if |ps| == 1 then ps[0]
    else
      var rest := MinPosition(ps[1..]);
      if LexLe(ps[0], rest) then ps[0] else rest
  }
}

=== FILE: ids.dfy ===
/** Identifiers of blocks and connections, and the allocator behind `Id::new()`. */
module Ids {

  /** An opaque identifier. Blocks and connections draw from one pool. */
  type Id = nat

  /** The state of the process-wide allocator: the next value it hands out.
      Every identifier handed out before this state lies below `next`. */
  datatype IdGen = IdGen(next: nat)

  /** True when every identifier in `ids` was handed out before state `g`. */
  ghost predicate Below(g: IdGen, ids: set<Id>)
  {
    forall id | id in ids :: id < g.next
  }

  /** `Id::new()`: a value no earlier call returned, and the allocator's next state. */
  function NewId(g: IdGen): (r: (Id, IdGen))
    ensures g.next <= r.0 < r.1.next
    ensures forall seen: set<Id> {:trigger Below(g, seen)} :: Below(g, seen) ==> r.0 !in seen && Below(r.1, seen + {r.0})
  {
    (g.next, IdGen(g.next + 1))
  }
}

=== FILE: project.dfy ===
/** The project (`src/project.rs`): the module table keyed by module name, the
    main plot and the simulation speed, with the persisted form that leaves the
    builtin modules out, the merge that puts them back after loading, and the
    walk that gathers the modules a module depends on. */
module Projects {
  import opened Wrappers
  import opened Ids
  import opened Geometry
  import opened Circuit

  /** Rust's `i32`, the type of the ticks-per-second setting. */
  type Int32 = x: int | -0x8000_0000 <= x < 0x8000_0000

  /** `Simulator::DEFAULT_TICKS_PER_SECOND`. The simulator is not part of this
      model; the value only has to be some `i32`. */
  const DefaultTicksPerSecond: Int32 := 1

  /** `builtin::INPUT_MODULE_NAME` and `builtin::OUTPUT_MODULE_NAME`, the builtin
      modules of a composite's boundary blocks. The builtin table is not part of
      this model; any two distinct names serve. */
  const InputModuleName: string := "Input"
  const OutputModuleName: string := "Output"

  datatype Project = Project(modules: map<string, Module>, mainPlot: Plot, tps: Int32)

  /** What a saved project file holds: the same three fields, with the builtin
      modules filtered out of `modules`. */
  datatype ProjectDocument = ProjectDocument(modules: map<string, Module>, mainPlot: Plot, tps: Int32)

  // Building the table.

  /** `ms[i]` is the last module in `ms` with its name. */
  ghost predicate LastOfName(ms: seq<Module>, i: int)
  {
    0 <= i < |ms| && forall j | i < j < |ms| :: ms[j].name != ms[i].name
  }

  /** Collecting `(name, module)` pairs into a map, later pairs overriding
      earlier ones. */
  function ModulesByName(ms: seq<Module>): map<string, Module>
  {
    if ms == [] then map[]
    else ModulesByName(ms[..|ms| - 1])[ms[|ms| - 1].name := ms[|ms| - 1]]
  }

  /** Every given module's name is a key. */
  lemma {:induction false} ModulesByNameHasEveryName(ms: seq<Module>)
    ensures forall i | 0 <= i < |ms| :: ms[i].name in ModulesByName(ms)
  {
    if ms != [] {
      ModulesByNameHasEveryName(ms[..|ms| - 1]);
      forall i | 0 <= i < |ms| - 1 ensures ms[i].name in ModulesByName(ms) {
        assert ms[..|ms| - 1][i] == ms[i];
      }
    }
  }

  /** Only given modules are stored, each under its own name. */
  lemma {:induction false} ModulesByNameStoresGiven(ms: seq<Module>)
    ensures forall k | k in ModulesByName(ms) :: ModulesByName(ms)[k] in ms && ModulesByName(ms)[k].name == k
  {
    if ms != [] {
      var init := ms[..|ms| - 1];
      ModulesByNameStoresGiven(init);
      forall k | k in ModulesByName(ms) && k != ms[|ms| - 1].name
        ensures ModulesByName(ms)[k] in ms
      {
        assert ModulesByName(init)[k] in init;
      }
    }
  }

  /** Of several modules with one name the last one is stored. */
  lemma {:induction false} ModulesByNameLastWins(ms: seq<Module>)
    ensures forall i | LastOfName(ms, i) :: ms[i].name in ModulesByName(ms) && ModulesByName(ms)[ms[i].name] == ms[i]
  {
    if ms != [] {
      var init := ms[..|ms| - 1];
      ModulesByNameHasEveryName(ms);
      ModulesByNameLastWins(init);
      forall i | LastOfName(ms, i) && i < |init|
        ensures ModulesByName(ms)[ms[i].name] == ms[i]
      {
        assert ms[i].name != ms[|ms| - 1].name;
        assert LastOfName(init, i) by {
          forall j | i < j < |init| ensures init[j].name != init[i].name {
            assert init[j] == ms[j];
          }
        }
      }
    }
  }

  /** Each module lands under its own name, only given modules are stored, and
      of several modules with one name the last one wins. */
  lemma ModulesByNameFacts(ms: seq<Module>)
    ensures forall i | 0 <= i < |ms| :: ms[i].name in ModulesByName(ms)
    ensures forall k | k in ModulesByName(ms) :: ModulesByName(ms)[k] in ms && ModulesByName(ms)[k].name == k
    ensures forall i | LastOfName(ms, i) :: ModulesByName(ms)[ms[i].name] == ms[i]
  {
    ModulesByNameHasEveryName(ms);
    ModulesByNameStoresGiven(ms);
    ModulesByNameLastWins(ms);
  }

  /** `Project::new`: the given modules keyed by name, an empty main plot and the
      default simulation speed. */
  function NewProject(ms: seq<Module>): (r: Project)
    ensures forall i | 0 <= i < |ms| :: ms[i].name in r.modules
    ensures forall k | k in r.modules :: r.modules[k] in ms && r.modules[k].name == k
    ensures forall i | LastOfName(ms, i) :: r.modules[ms[i].name] == ms[i]
    ensures r.mainPlot == EmptyPlot() && r.tps == DefaultTicksPerSecond
  {
    ModulesByNameFacts(ms);
    Project(ModulesByName(ms), EmptyPlot(), DefaultTicksPerSecond)
  }

  /** With distinct names, every module given to `Project::new` is in the table
      under its name, unchanged. */
  lemma {:induction false} NewProjectKeepsEveryModule(ms: seq<Module>)
    requires forall i, j | 0 <= i < j < |ms| :: ms[i].name != ms[j].name
    ensures forall i | 0 <= i < |ms| :: ms[i].name in NewProject(ms).modules && NewProject(ms).modules[ms[i].name] == ms[i]
  {
    forall i | 0 <= i < |ms|
      ensures ms[i].name in NewProject(ms).modules && NewProject(ms).modules[ms[i].name] == ms[i]
    {
      assert LastOfName(ms, i);
    }
  }

  // Saving and loading.

  /** The `Serialize` impl of `Project`: exactly the non-builtin modules are
      written, with the main plot and the speed as they are. */
  function Serialize(p: Project): (d: ProjectDocument)
    ensures forall k :: k in d.modules <==> k in p.modules && !p.modules[k].builtin
    ensures forall k | k in d.modules :: d.modules[k] == p.modules[k]
    ensures d.mainPlot == p.mainPlot && d.tps == p.tps
  {
    ProjectDocument(map k | k in p.modules && !p.modules[k].builtin :: p.modules[k], p.mainPlot, p.tps)
  }

  /** True when `add_module` has to create the boundary blocks: the module has a
      plot but names no IO blocks. */
  predicate NeedsIoBlocks(m: Module)
  {
    m.plot.Some? && m.ioBlocks.None?
  }

  /** A boundary block as `add_module` creates it: an instance of `kind` at
      `position`, unique, not highlighted, with `n` empty inputs and `n` empty
      outputs. */
  predicate IsIoBlock(b: Block, kind: Module, position: Vec2, n: nat)
  {
    b.moduleId == kind.name && b.position == position && b.unique && !b.highlighted &&
    |b.inputs| == n && |b.outputs| == n &&
    (forall k | 0 <= k < n :: b.inputs[k].None?) &&
    (forall k | 0 <= k < n :: b.outputs[k].None?)
  }

  /** `added` is `m` with two blocks with ids taken from `g` to `g'` put in its
      plot, an input block and an output block, and named as its IO blocks. */
  ghost predicate IoBlocksAdded(p: Project, m: Module, added: Module, g: IdGen, g': IdGen)
    requires NeedsIoBlocks(m) && InputModuleName in p.modules && OutputModuleName in p.modules
  {
    added.ioBlocks.Some? && added.plot.Some? &&
    var (i, o) := added.ioBlocks.value;
    var before := m.plot.value;
    var after := added.plot.value;
    g.next <= i < o < g'.next &&
    i in after.blocks && o in after.blocks && after.blocks[i].id == i && after.blocks[o].id == o &&
    added == m.(plot := added.plot, ioBlocks := added.ioBlocks) &&
    after.blocks.Keys == before.blocks.Keys + {i, o} &&
    (forall id | id in before.blocks && id != i && id != o :: after.blocks[id] == before.blocks[id]) &&
    after.connections == before.connections && after.selection == before.selection &&
    IsIoBlock(after.blocks[i], p.modules[InputModuleName], Vec2(50, 50), m.numInputs) &&
    IsIoBlock(after.blocks[o], p.modules[OutputModuleName], Vec2(400, 50), m.numOutputs)
  }

  /** `Project::add_module`: a module with a plot but no IO blocks first gets an
      input and an output block in its plot; then the module replaces the entry
      under its name. Looking up the Input and Output builtins panics when they
      are missing, which is this function's precondition. */
  function AddModule(p: Project, m: Module, g: IdGen): (r: (Project, IdGen))
    requires NeedsIoBlocks(m) ==> InputModuleName in p.modules && OutputModuleName in p.modules
    ensures r.0.modules.Keys == p.modules.Keys + {m.name}
    ensures forall k | k in p.modules && k != m.name :: r.0.modules[k] == p.modules[k]
    ensures r.0.mainPlot == p.mainPlot && r.0.tps == p.tps
    ensures !NeedsIoBlocks(m) ==> r.0.modules[m.name] == m && r.1 == g
    ensures NeedsIoBlocks(m) ==> IoBlocksAdded(p, m, r.0.modules[m.name], g, r.1)
    ensures NeedsIoBlocks(m) && Below(g, m.plot.value.blocks.Keys) ==>
              var (i, o) := r.0.modules[m.name].ioBlocks.value;
              i !in m.plot.value.blocks && o !in m.plot.value.blocks
  {
    if NeedsIoBlocks(m) then
      var (input, g1) := NewSizedBlock(p.modules[InputModuleName], Vec2(50, 50), true, m.numInputs, m.numInputs, g);
      var (output, g2) := NewSizedBlock(p.modules[OutputModuleName], Vec2(400, 50), true, m.numOutputs, m.numOutputs, g1);
      var plot := AddBlock(AddBlock(m.plot.value, input), output);
      (p.(modules := p.modules[m.name := m.(plot := Some(plot), ioBlocks := Some((input.id, output.id)))]), g2)
    else
      (p.(modules := p.modules[m.name := m]), g)
  }

  /** `add_module` keeps the added module's plot keyed by id: the boundary
      blocks are stored under the ids recorded for them. */
  lemma AddModuleKeepsPlotKeyed(p: Project, m: Module, g: IdGen)
    requires NeedsIoBlocks(m) ==> InputModuleName in p.modules && OutputModuleName in p.modules
    requires m.plot.Some? ==> BlocksKeyedById(m.plot.value) && ConnectionsKeyedById(m.plot.value)
    ensures var added := AddModule(p, m, g).0.modules[m.name];
            added.plot.Some? ==> BlocksKeyedById(added.plot.value) && ConnectionsKeyedById(added.plot.value)
  {
    var added := AddModule(p, m, g).0.modules[m.name];
    if NeedsIoBlocks(m) {
      assert IoBlocksAdded(p, m, added, g, AddModule(p, m, g).1);
      var (i, o) := added.ioBlocks.value;
      var after := added.plot.value;
      forall id | id in after.blocks ensures after.blocks[id].id == id {
        if id != i && id != o {
          assert after.blocks[id] == m.plot.value.blocks[id];
        }
      }
    }
  }

  /** The builtin merge after loading: `add_module` for every builtin in turn. A
      builtin never needs boundary blocks. The table ends up as the loaded one
      overridden by the builtins keyed by name, as `Project::new` would key them. */
  function MergeBuiltins(p: Project, builtins: seq<Module>, g: IdGen): (r: Project)
    requires forall i | 0 <= i < |builtins| :: !NeedsIoBlocks(builtins[i])
    ensures r.modules == p.modules + ModulesByName(builtins)
    ensures r.mainPlot == p.mainPlot && r.tps == p.tps
  {
    if builtins == [] then p
    else
      var init := builtins[..|builtins| - 1];
      var last := builtins[|builtins| - 1];
      var q := MergeBuiltins(p, init, g);
      assert ModulesByName(builtins) == ModulesByName(init)[last.name := last];
      OverrideThenUpdate(p.modules, ModulesByName(init), last.name, last);
      AddModule(q, last, g).0
  }

  lemma OverrideThenUpdate(a: map<string, Module>, b: map<string, Module>, k: string, v: Module)
    ensures a + b[k := v] == (a + b)[k := v]
  {
    assert (a + b[k := v]).Keys == ((a + b)[k := v]).Keys;
  }

  /** `m` with `update` applied to its plot, if it has one. */
  function UpdatePlot(m: Module, update: Plot -> Plot): (r: Module)
    ensures r.plot.Some? <==> m.plot.Some?
    ensures r == m.(plot := r.plot)
    ensures m.plot.Some? ==> r.plot.value == update(m.plot.value)
  {
    if m.plot.Some? then m.(plot := Some(update(m.plot.value))) else m
  }

  /** `iter_plots_mut` followed by `update_all_blocks` on each plot: every module
      plot and the main plot are passed through `update`, and nothing else
      changes. */
  function UpdateAllPlots(p: Project, update: Plot -> Plot): (r: Project)
    ensures r.modules.Keys == p.modules.Keys
    ensures forall k | k in p.modules :: r.modules[k] == UpdatePlot(p.modules[k], update)
    ensures r.mainPlot == update(p.mainPlot) && r.tps == p.tps
  {
    Project(map k | k in p.modules :: UpdatePlot(p.modules[k], update), update(p.mainPlot), p.tps)
  }

  /** `Project::load_from` after the file has been parsed into `doc`: merge the
      builtins, then normalise every plot with `update` (`update_all_blocks`,
      whose body is not part of this model). */
  function Load(doc: ProjectDocument, builtins: seq<Module>, update: Plot -> Plot, g: IdGen): (r: Project)
    requires forall i | 0 <= i < |builtins| :: !NeedsIoBlocks(builtins[i])
    ensures r.modules.Keys == doc.modules.Keys + ModulesByName(builtins).Keys
    ensures forall k | k in ModulesByName(builtins) :: r.modules[k] == UpdatePlot(ModulesByName(builtins)[k], update)
    ensures forall k | k in doc.modules && k !in ModulesByName(builtins) :: r.modules[k] == UpdatePlot(doc.modules[k], update)
    ensures r.mainPlot == update(doc.mainPlot) && r.tps == doc.tps
  {
    UpdateAllPlots(MergeBuiltins(Project(doc.modules, doc.mainPlot, doc.tps), builtins, g), update)
  }

  /** Saving a project, loading the file and saving again writes the same file,
      provided the builtins are builtin and do not share a name with a project
      module, and `update_all_blocks` leaves the saved plots alone. Every builtin
      is present after loading. */
  lemma {:induction false} SaveLoadRoundTrip(p: Project, builtins: seq<Module>, update: Plot -> Plot, g: IdGen)
    requires forall i | 0 <= i < |builtins| :: builtins[i].builtin && !NeedsIoBlocks(builtins[i])
    requires forall i | 0 <= i < |builtins| :: builtins[i].name !in Serialize(p).modules
    requires update(p.mainPlot) == p.mainPlot
    requires forall k | k in p.modules && !p.modules[k].builtin && p.modules[k].plot.Some? ::
               update(p.modules[k].plot.value) == p.modules[k].plot.value
    ensures forall i | 0 <= i < |builtins| :: builtins[i].name in Load(Serialize(p), builtins, update, g).modules
    ensures Serialize(Load(Serialize(p), builtins, update, g)) == Serialize(p)
  {
    var d := Serialize(p);
    var q := Load(d, builtins, update, g);
    var d' := Serialize(q);
    LoadedBuiltinsStayBuiltin(d, builtins, update, g);
    SavedModulesSurviveLoad(p, builtins, update, g);
    LoadSavesNoBuiltin(p, builtins, update, g);
    assert d'.modules == d.modules;
  }

  /** Every saved module is saved again, unchanged, after loading. */
  lemma SavedModulesSurviveLoad(p: Project, builtins: seq<Module>, update: Plot -> Plot, g: IdGen)
    requires forall i | 0 <= i < |builtins| :: !NeedsIoBlocks(builtins[i])
    requires forall i | 0 <= i < |builtins| :: builtins[i].name !in Serialize(p).modules
    requires forall k | k in p.modules && !p.modules[k].builtin && p.modules[k].plot.Some? ::
               update(p.modules[k].plot.value) == p.modules[k].plot.value
    ensures forall k | k in Serialize(p).modules ::
              k in Serialize(Load(Serialize(p), builtins, update, g)).modules &&
              Serialize(Load(Serialize(p), builtins, update, g)).modules[k] == Serialize(p).modules[k]
  {
    var d := Serialize(p);
    var q := Load(d, builtins, update, g);
    ModulesByNameStoresGiven(builtins);
    forall k | k in d.modules
      ensures k in Serialize(q).modules && Serialize(q).modules[k] == d.modules[k]
    {
      assert k !in ModulesByName(builtins);
      assert q.modules[k] == UpdatePlot(d.modules[k], update);
    }
  }

  /** Loading adds only builtins, which the next save leaves out again. */
  lemma LoadSavesNoBuiltin(p: Project, builtins: seq<Module>, update: Plot -> Plot, g: IdGen)
    requires forall i | 0 <= i < |builtins| :: builtins[i].builtin && !NeedsIoBlocks(builtins[i])
    ensures forall k | k in Serialize(Load(Serialize(p), builtins, update, g)).modules :: k in Serialize(p).modules
  {
    var d := Serialize(p);
    var q := Load(d, builtins, update, g);
    ModulesByNameStoresGiven(builtins);
    forall k | k in Serialize(q).modules
      ensures k in d.modules
    {
      assert k in d.modules || k in ModulesByName(builtins);
    }
  }

  /** Builtins stay builtin through loading, and every one is present. */
  lemma LoadedBuiltinsStayBuiltin(d: ProjectDocument, builtins: seq<Module>, update: Plot -> Plot, g: IdGen)
    requires forall i | 0 <= i < |builtins| :: builtins[i].builtin && !NeedsIoBlocks(builtins[i])
    ensures forall i | 0 <= i < |builtins| ::
              builtins[i].name in Load(d, builtins, update, g).modules && Load(d, builtins, update, g).modules[builtins[i].name].builtin
  {
    var q := Load(d, builtins, update, g);
    ModulesByNameHasEveryName(builtins);
    ModulesByNameStoresGiven(builtins);
    forall i | 0 <= i < |builtins|
      ensures builtins[i].name in q.modules && q.modules[builtins[i].name].builtin
    {
      assert ModulesByName(builtins)[builtins[i].name] in builtins;
    }
  }

  // Editing the table.

  /** `Project::add_existing_module`: the module replaces the entry under its
      name; every other entry stays. */
  function AddExistingModule(p: Project, m: Module): (r: Project)
    ensures r.modules.Keys == p.modules.Keys + {m.name} && r.modules[m.name] == m
    ensures forall k | k in p.modules && k != m.name :: r.modules[k] == p.modules[k]
    ensures r.mainPlot == p.mainPlot && r.tps == p.tps
  {
    p.(modules := p.modules[m.name := m])
  }

  /** `Project::remove_module`: the entry under `name`, if any, goes; every other
      entry stays. */
  function RemoveModule(p: Project, name: string): (r: Project)
    ensures r.modules.Keys == p.modules.Keys - {name}
    ensures forall k | k in r.modules :: r.modules[k] == p.modules[k]
    ensures r.mainPlot == p.mainPlot && r.tps == p.tps
  {
    p.(modules := p.modules - {name})
  }

  /** `Project::plot`: the plot of the module named `name`, absent exactly when
      there is no such module or it is a primitive. */
  function PlotOf(p: Project, name: string): (r: Option<Plot>)
    ensures r.None? <==> name !in p.modules || p.modules[name].plot.None?
    ensures r.Some? ==> Some(r.value) == p.modules[name].plot
  {
    if name in p.modules then p.modules[name].plot else None
  }

  /** Removing a module undoes adding it over an absent name, and adding one
      after removing its name is the same as adding it outright. The plot looked
      up afterwards is the added module's, or none. */
  lemma {:induction false} AddRemoveInverse(p: Project, m: Module)
    ensures m.name !in p.modules ==> RemoveModule(AddExistingModule(p, m), m.name) == p
    ensures AddExistingModule(RemoveModule(p, m.name), m) == AddExistingModule(p, m)
    ensures PlotOf(AddExistingModule(p, m), m.name) == m.plot
    ensures PlotOf(RemoveModule(p, m.name), m.name).None?
  {
    if m.name !in p.modules {
      var r := RemoveModule(AddExistingModule(p, m), m.name);
      assert r.modules.Keys == p.modules.Keys;
      assert r.modules == p.modules;
    }
    var a := AddExistingModule(RemoveModule(p, m.name), m);
    var b := AddExistingModule(p, m);
    assert a.modules.Keys == b.modules.Keys;
    assert a.modules == b.modules;
  }

  /** `Project::set_tps`: only the speed changes, and `tps()` then reads it back. */
  function SetTps(p: Project, tps: Int32): (r: Project)
    ensures r.tps == tps && r.modules == p.modules && r.mainPlot == p.mainPlot
  {
    p.(tps := tps)
  }

  /** The saved speed is the one last set. */
  lemma SavedTpsIsLastSet(p: Project, a: Int32, b: Int32)
    ensures Serialize(SetTps(SetTps(p, a), b)).tps == b
    ensures Serialize(SetTps(p, a)).modules == Serialize(p).modules
  {
  }

  // Dependencies between modules.

  /** The module `collect_dependencies` follows from block `b`: the module named
      by `b.moduleId`, when the table has it and it is not builtin. Blocks of
      unknown modules and of builtins lead nowhere. */
  function Dependency(p: Project, b: Block): (r: Option<Module>)
    ensures r.Some? <==> b.moduleId in p.modules && !p.modules[b.moduleId].builtin
    ensures r.Some? ==> r.value == p.modules[b.moduleId] && r.value in p.modules.Values
  {
    if b.moduleId in p.modules && !p.modules[b.moduleId].builtin then Some(p.modules[b.moduleId]) else None
  }

  predicate DependsOn(p: Project, b: Block, y: string)
  {
    Dependency(p, b).Some? && Dependency(p, b).value.name == y
  }

  /** Module `x` uses module `y`: `x`'s plot holds a block that leads to `y`. */
  ghost predicate Uses(p: Project, x: string, y: string)
  {
    PlotOf(p, x).Some? && exists id | id in PlotOf(p, x).value.blocks :: DependsOn(p, PlotOf(p, x).value.blocks[id], y)
  }

  /** A chain of at least one use. */
  ghost predicate IsPath(p: Project, path: seq<string>)
  {
    |path| >= 2 && forall i | 0 <= i < |path| - 1 :: Uses(p, path[i], path[i + 1])
  }

  /** `y` is reached from `x` by one or more uses. */
  ghost predicate Reaches(p: Project, x: string, y: string)
  {
    exists path | IsPath(p, path) :: path[0] == x && path[|path| - 1] == y
  }

  /** The names of the project's modules. */
  ghost function ProjectNames(p: Project): set<string>
  {
    set m | m in p.modules.Values :: m.name
  }

  /** `r` holds every entry of `acc`, unchanged. */
  ghost predicate Extends(acc: map<string, Module>, r: map<string, Module>)
  {
    acc.Keys <= r.Keys && forall k | k in acc :: r[k] == acc[k]
  }

  /** Every entry `r` adds to `acc` is a non-builtin project module stored under
      its own name. */
  ghost predicate AddsProjectModules(p: Project, acc: map<string, Module>, r: map<string, Module>)
  {
    forall k | k in r && k !in acc :: r[k] in p.modules.Values && r[k].name == k && !r[k].builtin
  }

  /** Every entry `r` adds to `acc` is reached from `name`. */
  ghost predicate AddsOnlyReachable(p: Project, name: string, acc: map<string, Module>, r: map<string, Module>)
  {
    forall k | k in r && k !in acc :: Reaches(p, name, k)
  }

  /** Every module `name` uses, and every module used by an entry `r` adds to
      `acc`, is in `r`. */
  ghost predicate ClosedUnderUse(p: Project, name: string, acc: map<string, Module>, r: map<string, Module>)
  {
    (forall y | Uses(p, name, y) :: y in r) &&
    (forall x, y | x in r && x !in acc && Uses(p, x, y) :: y in r)
  }

  lemma UsesIsPath(p: Project, x: string, y: string)
    requires Uses(p, x, y)
    ensures Reaches(p, x, y)
  {
    assert IsPath(p, [x, y]);
  }

  /** Only a module with a plot reaches anything. */
  lemma ReachesNeedsPlot(p: Project, x: string, y: string)
    requires Reaches(p, x, y)
    ensures PlotOf(p, x).Some?
  {
    var path :| IsPath(p, path) && path[0] == x && path[|path| - 1] == y;
    assert Uses(p, path[0], path[1]);
  }

  lemma {:induction false} ReachesPrepend(p: Project, x: string, y: string, z: string)
    requires Uses(p, x, y) && Reaches(p, y, z)
    ensures Reaches(p, x, z)
  {
    var path :| IsPath(p, path) && path[0] == y && path[|path| - 1] == z;
    var path' := [x] + path;
    assert forall i | 1 <= i < |path'| - 1 :: path'[i] == path[i - 1] && path'[i + 1] == path[i];
    assert IsPath(p, path');
  }

  /** Every module reached from `name` lies in a map closed under use that
      started empty. */
  lemma {:induction false} ClosedHoldsReachable(p: Project, name: string, r: map<string, Module>, path: seq<string>, i: nat)
    requires ClosedUnderUse(p, name, map[], r)
    requires IsPath(p, path) && path[0] == name && 1 <= i < |path|
    ensures path[i] in r
    decreases i
  {
    assert Uses(p, path[i - 1], path[i]);
    if i > 1 {
      ClosedHoldsReachable(p, name, r, path, i - 1);
    }
  }

  /** `Project::collect_dependencies`: walks the blocks of `name`'s plot, in the
      table's arbitrary order, and for each block leading to a non-builtin module
      not yet in `acc` inserts that module under its name and walks it in turn.
      Every recursive call has one more of the project's module names in `acc`,
      so the walk ends also on cyclic module graphs. Entries are only added,
      each module once; from an empty `acc` the result is exactly the set of
      modules reached from `name`, which contains `name` itself when it lies on
      a cycle. */
  method CollectDependencies(p: Project, name: string, acc: map<string, Module>) returns (r: map<string, Module>)
    ensures Extends(acc, r)
    ensures AddsProjectModules(p, acc, r)
    ensures AddsOnlyReachable(p, name, acc, r)
    ensures ClosedUnderUse(p, name, acc, r)
    ensures acc == map[] ==> forall y :: y in r <==> Reaches(p, name, y)
    decreases ProjectNames(p) - acc.Keys
  {
    r := acc;
    var plot := PlotOf(p, name);
    if plot.None? {
      forall y | Reaches(p, name, y) ensures PlotOf(p, name).Some? {
        ReachesNeedsPlot(p, name, y);
      }
      return;
    }
    var blocks := plot.value.blocks;
    var todo := blocks.Keys;
    while todo != {}
      invariant todo <= blocks.Keys
      invariant Extends(acc, r) && AddsProjectModules(p, acc, r) && AddsOnlyReachable(p, name, acc, r)
      invariant forall x, y | x in r && x !in acc && Uses(p, x, y) :: y in r
      invariant forall id | id in blocks && id !in todo :: Dependency(p, blocks[id]).Some? ==> Dependency(p, blocks[id]).value.name in r
      decreases todo
    {
      var id :| id in todo;
      todo := todo - {id};
      var dep := Dependency(p, blocks[id]);
      if dep.Some? && dep.value.name !in r {
        var m := dep.value;
        assert m.name in ProjectNames(p);
        assert Uses(p, name, m.name) by {
          assert DependsOn(p, blocks[id], m.name);
        }
        UsesIsPath(p, name, m.name);
        var inner := r[m.name := m];
        assert m.name in ProjectNames(p) - acc.Keys && m.name !in ProjectNames(p) - inner.Keys;
        assert ProjectNames(p) - inner.Keys < ProjectNames(p) - acc.Keys;
        r := CollectDependencies(p, m.name, inner);
        forall k | k in r && k !in inner
          ensures Reaches(p, name, k)
        {
          ReachesPrepend(p, name, m.name, k);
        }
      }
    }
    UsedAreCollected(p, name, r);
    if acc == map[] {
      CollectedAreReachable(p, name, r);
    }
  }

  /** Once every block of `name`'s plot has had its module collected, every
      module `name` uses is collected. */
  lemma UsedAreCollected(p: Project, name: string, r: map<string, Module>)
    requires PlotOf(p, name).Some?
    requires forall id | id in PlotOf(p, name).value.blocks ::
               Dependency(p, PlotOf(p, name).value.blocks[id]).Some? ==>
               Dependency(p, PlotOf(p, name).value.blocks[id]).value.name in r
    ensures forall y | Uses(p, name, y) :: y in r
  {
    forall y | Uses(p, name, y) ensures y in r {
      var blocks := PlotOf(p, name).value.blocks;
      var id :| id in blocks && DependsOn(p, blocks[id], y);
    }
  }

  /** A map built from nothing that adds only modules reached from `name` and is
      closed under use holds exactly the modules reached from `name`. */
  lemma CollectedAreReachable(p: Project, name: string, r: map<string, Module>)
    requires AddsOnlyReachable(p, name, map[], r) && ClosedUnderUse(p, name, map[], r)
    ensures forall y :: y in r <==> Reaches(p, name, y)
  {
    forall y ensures y in r <==> Reaches(p, name, y) {
      if Reaches(p, name, y) {
        var path :| IsPath(p, path) && path[0] == name && path[|path| - 1] == y;
        ClosedHoldsReachable(p, name, r, path, |path| - 1);
      }
    }
  }

  /** The modules reached from `a` when `a` uses only `b`, `b` uses only `c` and
      `c` uses nothing: exactly `b` and `c`. */
  lemma {:induction false} ChainReaches(p: Project, a: string, b: string, c: string)
    requires forall y :: Uses(p, a, y) <==> y == b
    requires forall y :: Uses(p, b, y) <==> y == c
    requires forall y :: !Uses(p, c, y)
    ensures forall y :: Reaches(p, a, y) <==> y == b || y == c
  {
    UsesIsPath(p, a, b);
    assert Uses(p, b, c);
    UsesIsPath(p, b, c);
    ReachesPrepend(p, a, b, c);
    forall y | Reaches(p, a, y) ensures y == b || y == c
    {
      var path :| IsPath(p, path) && path[0] == a && path[|path| - 1] == y;
      ChainStaysInside(p, a, b, c, path, |path| - 1);
    }
  }

  lemma {:induction false} ChainStaysInside(p: Project, a: string, b: string, c: string, path: seq<string>, i: nat)
    requires forall y :: Uses(p, a, y) <==> y == b
    requires forall y :: Uses(p, b, y) <==> y == c
    requires forall y :: !Uses(p, c, y)
    requires IsPath(p, path) && path[0] == a && 1 <= i < |path|
    ensures path[i] == b || path[i] == c
    decreases i
  {
    assert Uses(p, path[i - 1], path[i]);
    if i > 1 {
      ChainStaysInside(p, a, b, c, path, i - 1);
    }
  }

  /** Collecting from the head of a chain `a` uses `b` uses `c` gathers exactly
      `b` and `c`, each as the project stores it. */
  method CollectChain(p: Project, a: string, b: string, c: string) returns (r: map<string, Module>)
    requires forall y :: Uses(p, a, y) <==> y == b
    requires forall y :: Uses(p, b, y) <==> y == c
    requires forall y :: !Uses(p, c, y)
    ensures r.Keys == {b, c}
    ensures forall k | k in r :: r[k] in p.modules.Values && r[k].name == k && !r[k].builtin
  {
    r := CollectDependencies(p, a, map[]);
    ChainReaches(p, a, b, c);
  }
}

=== FILE: wrappers.dfy ===
/** The optional value the editor's Rust code expresses with `Option`. */
module Wrappers {

  datatype Option<+T> = None | Some(value: T)
}
